=== FILE: README.md ===
# Domain prefix filters for hub sites — a Dafny model

`cg-domain-prefix-generator.py` is a CloudGenix script that publishes each
service-binding domain's local IPv4 prefixes to every hub site. It runs in
three phases:

1. It reads the service-binding maps (the "domains"), the sites and the
   elements.
2. For every domain it collects the `ipv4_prefix` values declared in the
   local prefix sets of the sites bound to it.
3. On every element of every site whose cluster role is `HUB`, for every
   domain, it rewrites every routing prefix filter named
   `AUTO_DOMAIN_<domain name>` so that it lists those prefixes. When no
   filter of that name exists, it creates one, but only if the domain has
   at least one prefix; otherwise it skips the pair. Spaces and question
   marks in the name become underscores. The rules are ordered 10, 20,
   30, … and are all permit with `ge` and `le` set to 0.

Any failed read of the inventory or of an element's filter list ends the
run. The reads of the local prefix sets are not checked: a read that
returns no content counts as a site without prefixes. A failed create or
update is logged, and the run goes on.

The model is split into modules that follow that structure:

| module | file | what it models |
|---|---|---|
| `Wrappers` | `wrappers.dfy` | `Option` |
| `Inventory` | `inventory.dfy` | domains, sites, elements, local prefix sets, the result of one inventory read |
| `Naming` | `naming.dfy` | the filter name (`prefix_name`) |
| `Rules` | `rules.dfy` | the rule list and its order counter |
| `Aggregation` | `aggregation.dfy` | the per-domain prefix walk and the `ip_prefix_dict` table |
| `Reconcile` | `reconcile.dfy` | `add_prefix_to_site` on one (hub site, element, domain) |
| `Run` | `run.dfy` | hub selection, the nested loops and `go()` as a whole |

## How the remote side is modelled

- **Inventory reads** are inputs of type `ReadResult`, either `ReadFailed` or
  `ReadOk(items)`. Each local prefix set is the entry for the site's id in a
  map. An absent entry is a site that has no content.
- **Routing prefix filters** live in a `Store`, a map from the pair (site id,
  element id) to that element's filter list. An absent key is an empty list.
- **Answers of the control plane** come from an `Api` value of three oracles,
  each indexed by call number:
  - `listReadOk(n)`: whether the n-th filter-list read succeeds;
  - `writeOk(n)`: whether the n-th create or update succeeds;
  - `freshId(n)`: the id the server gives to a filter created by the n-th write.

  A `Calls` counter threads the call numbers through the run. Only writes
  that succeed change the store.
- **A successful create** puts the new filter at the end of the element's
  list, so later reads of that list return it last
  (`Reconcile.ReconcileUnit`). **A successful update** stores exactly the
  filter that was sent (`Reconcile.UpdateEffect`). These two choices fix
  the order in which same-named filters are met, and so which write number
  each of them gets.
- **A run** yields a `Trace`: its events, the final store and the call count.
  An event is one of:
  - `Visit(site, element, domain, outcome)`, where the outcome is
    `Updated(writes)`, `Created(body, ok)` or `Skipped`;
  - `Fatal(reason)`, which stands for `sys.exit("API Error")`.
- **`ip_prefix_dict`** is an ordered table of rows, with the insertion-order
  semantics of Python 3.7 and later (`Aggregation.Upsert`,
  `Aggregation.AssignIds`). A domain id that appears twice keeps the
  position of its first assignment. Its row is then reset and refilled by the
  last assignment. The script's `#!/usr/bin/env python` line does not fix
  the interpreter version. On interpreters older than 3.7, the order in
  which `ip_prefix_dict.keys()` is walked (cg-domain-prefix-generator.py:137)
  is unspecified.

## Behaviour worth noting

- A prefix is collected only when `ipv4_prefix` is truthy
  (cg-domain-prefix-generator.py:122). A present but empty string
  contributes nothing.
- Every filter whose name matches is updated, one write each
  (cg-domain-prefix-generator.py:154-170). The loop does not stop at the
  first match.
- A domain id that appears twice in the inventory has its row reset
  (cg-domain-prefix-generator.py:111-112). Only the prefixes gathered for
  its last occurrence survive, and the row keeps its first position.

## Model

| member | source | states |
|---|---|---|
| Naming.Sanitise | cg-domain-prefix-generator.py:109 | same length; each space and question mark becomes `_`, every other character is kept; no space or `?` remains |
| Naming.FilterName | cg-domain-prefix-generator.py:109 | the name is `AUTO_DOMAIN_` followed by the domain name with each space or `?` turned into `_`; length is 12 plus the name's; no space or `?` remains |
| Naming.SanitiseIdempotent | cg-domain-prefix-generator.py:109 | replacing twice is the same as replacing once |
| Naming.SanitiseAppend | cg-domain-prefix-generator.py:109 | replacement distributes over concatenation |
| Naming.FilterNameSanitised | cg-domain-prefix-generator.py:109 | a filter name is a fixed point of the replacement and equals the prefix plus the sanitised domain name |
| Naming.SanitiseFolded | cg-domain-prefix-generator.py:109 | names of equal length that agree after folding sanitise to the same string |
| Naming.FilterNameAgree | cg-domain-prefix-generator.py:109 | equal filter names come from names of equal length that agree position by position after folding |
| Naming.FilterNameFromFolded | cg-domain-prefix-generator.py:109 | names that agree after folding give equal filter names |
| Naming.FilterNameCollision | cg-domain-prefix-generator.py:109 | two domains get the same filter name exactly when their names agree position by position after replacement |
| Naming.CorpWanName | cg-domain-prefix-generator.py:109 | "Corp WAN?" yields `AUTO_DOMAIN_Corp_WAN_` |
| Naming.SpaceAndQuestionMarkCollide | cg-domain-prefix-generator.py:109 | the distinct names "a b" and "a?b" yield the same filter name |
| Rules.BuildRules | cg-domain-prefix-generator.py:174-178 | one rule per prefix in order; rule i is order 10(i+1), permit, that prefix, ge 0, le 0; the counter ends at 10n and is positive exactly when there is a prefix |
| Rules.BuildRulesShape | cg-domain-prefix-generator.py:160-163 | reading the prefixes back out of the rules gives the input; every rule is permit with ge = le = 0; orders strictly increase, are multiples of 10 and start at 10 |
| Rules.CorpWanRules | cg-domain-prefix-generator.py:174-177 | two prefixes give the rules (10, first) and (20, second) |
| Aggregation.SetPrefixes | cg-domain-prefix-generator.py:121-124 | a prefix set contributes at most one prefix per entry and never an empty string |
| Aggregation.SetPrefixesExact | cg-domain-prefix-generator.py:121-124 | every non-empty prefix occurs in the contribution as often as entries carry it |
| Aggregation.SetPrefixesAppend | cg-domain-prefix-generator.py:121-124 | the entries of a prefix set are walked in order and repeated prefixes are kept: a split set contributes the concatenation of its halves' contributions |
| Aggregation.SetPrefixesSingle | cg-domain-prefix-generator.py:122-124 | one entry contributes its `ipv4_prefix` when that is truthy and nothing otherwise |
| Aggregation.SetPrefixesMember | cg-domain-prefix-generator.py:121-124 | p is contributed exactly when p is non-empty and some entry carries it |
| Aggregation.NetworkPrefixes | cg-domain-prefix-generator.py:119-124 | the prefixes of a site's local networks are never empty strings |
| Aggregation.NetworkPrefixesAppend | cg-domain-prefix-generator.py:120-124 | local networks are walked in order and repeats across networks are kept: split networks contribute the concatenation of their halves' contributions |
| Aggregation.NetworkPrefixesSingle | cg-domain-prefix-generator.py:120-121 | one local network contributes exactly the prefixes of its prefix set |
| Aggregation.NetworkPrefixesLast | cg-domain-prefix-generator.py:119-124 | p comes out of the networks exactly when it comes out of the earlier ones or is non-empty and carried by the last one |
| Aggregation.NetworkPrefixesSound | cg-domain-prefix-generator.py:119-124 | every prefix coming out is non-empty and carried by some network |
| Aggregation.NetworkPrefixesComplete | cg-domain-prefix-generator.py:119-124 | every non-empty prefix some network carries comes out |
| Aggregation.NetworkPrefixesMember | cg-domain-prefix-generator.py:119-124 | p is among a site's prefixes exactly when it is non-empty and some entry of some local network carries it |
| Aggregation.Aggregate | cg-domain-prefix-generator.py:115-124 | no aggregate holds an empty string |
| Aggregation.AggregateUnbound | cg-domain-prefix-generator.py:115-116 | a domain no site is bound to gets no prefixes |
| Aggregation.AggregateSound | cg-domain-prefix-generator.py:115-124 | every prefix in a domain's aggregate is declared by a site bound to that domain |
| Aggregation.AggregateComplete | cg-domain-prefix-generator.py:115-124 | every prefix a site bound to the domain declares is in the domain's aggregate |
| Aggregation.AggregateAppend | cg-domain-prefix-generator.py:115-124 | sites are walked in list order: the aggregate of a split site list is the concatenation of the two aggregates |
| Aggregation.ContributionWithoutContent | cg-domain-prefix-generator.py:116-118 | a site contributes nothing (`Contribution`) unless it is bound to the domain, and a bound site whose local prefix set has no content (`SiteNetworks`) contributes nothing |
| Aggregation.AggregateSingle | cg-domain-prefix-generator.py:116-124 | one site contributes its prefixes if it is bound to the domain and nothing otherwise |
| Aggregation.AggregateLast | cg-domain-prefix-generator.py:115-124 | p is in the aggregate exactly when it is in the aggregate of the earlier sites or the last site is bound and declares it |
| Aggregation.AggregateMember | cg-domain-prefix-generator.py:115-124 | p is in a domain's aggregate exactly when some site bound to the domain declares p |
| Aggregation.FirstOccurrences | cg-domain-prefix-generator.py:111 | the dictionary's key list holds exactly the ids assigned |
| Aggregation.Position | cg-domain-prefix-generator.py:111 | the position found holds the key and no earlier row does; the length means the key is absent |
| Aggregation.Upsert | cg-domain-prefix-generator.py:111-113 | assigning a row keeps ids distinct; a new key is appended to the key order, an existing key keeps its place |
| Aggregation.UpsertMembers | cg-domain-prefix-generator.py:111-113 | after assigning, the table holds the new row and every row under another key, and nothing else |
| Aggregation.Assign | cg-domain-prefix-generator.py:107-113 | the table built by successive assignments has distinct ids |
| Aggregation.AssignIds | cg-domain-prefix-generator.py:107-111 | the table's ids come out in first-assignment order |
| Aggregation.AssignLast | cg-domain-prefix-generator.py:111-113 | after one more assignment a row is present exactly when it is the new row, or was present under a different key |
| Aggregation.AssignRows | cg-domain-prefix-generator.py:107-113 | a row is in the table exactly when it is the last row assigned under its key |
| Aggregation.AssignDistinct | cg-domain-prefix-generator.py:107-113 | with distinct ids the table is the rows in order |
| Aggregation.UpsertNewKey | cg-domain-prefix-generator.py:111-113 | assigning under a new key appends the row |
| Aggregation.AssignRepeated | cg-domain-prefix-generator.py:110-113 | rows for ids d, d', d give the table [last row for d, row for d']: the repeated id keeps its first position and takes the last value |
| Aggregation.Rows | cg-domain-prefix-generator.py:108-113 | one row per service-binding map, carrying that map's id |
| Aggregation.BuildTable | cg-domain-prefix-generator.py:107-124 | the table has distinct ids, in first-occurrence order of the service-binding maps |
| Aggregation.BuildTableRows | cg-domain-prefix-generator.py:107-124 | a row is in the table exactly when it is the name and aggregate of the last service-binding map with its id |
| Aggregation.BuildTableDistinct | cg-domain-prefix-generator.py:107-124 | with distinct ids, row i is service-binding map i's filter name and aggregate |
| Reconcile.WithRules | cg-domain-prefix-generator.py:158-163 | an updated filter keeps its id, name, description, tags and auto-generated flag and gets the new rules |
| Reconcile.NewFilterBody | cg-domain-prefix-generator.py:173-177 | a created filter has the domain's filter name, no description, no tags, is not auto-generated and carries rules 10, 20, … over the domain's prefixes |
| Reconcile.UpdateNamed | cg-domain-prefix-generator.py:154-170 | one write per filter with the name, in list order; each sends that filter with the new rules, and its success is the next write answer; a filter changes exactly when it has the name and its write succeeds |
| Reconcile.ReconcileUnit | cg-domain-prefix-generator.py:142-185 | a failed filter-list read is fatal and changes nothing; otherwise: updated exactly when some filter has the name (even with no prefixes), created exactly when none does and there are prefixes, skipped otherwise; only this element's filter list can change; a create posts the new body and appends it under the server's id only on success |
| Reconcile.FailedWritesKeepStore | cg-domain-prefix-generator.py:165-183 | when every write of the unit fails, the store is unchanged |
| Reconcile.UpdateEffectNoop | cg-domain-prefix-generator.py:154-165 | rewriting filters that already carry the rules leaves the list as it was |
| Reconcile.SecondPassStable | cg-domain-prefix-generator.py:147-185 | when some filter has the name and every such filter already carries the current rules, reconciling again issues updates only and leaves the store as it was |
| Reconcile.ReconcileTwiceStable | cg-domain-prefix-generator.py:147-185 | with reads and writes succeeding, reconciling a unit twice leaves the store as after once; the second pass never creates |
| Reconcile.CollidingNamesShareFilter | cg-domain-prefix-generator.py:153-183 | two domains with the same filter name on one element: the first creates the filter, the second updates that very filter with its own rules |
| Run.HubSites | cg-domain-prefix-generator.py:128-131 | a site is selected exactly when it is in the site list with cluster role `HUB`; never more sites than given |
| Run.HubSitesAppend | cg-domain-prefix-generator.py:128-131 | hub selection keeps site-list order |
| Run.ElementUnitsMember | cg-domain-prefix-generator.py:135-139 | a hub's units (`ElementUnits`, built from `RowUnits`) are exactly its own elements crossed with the table's rows |
| Run.UnitsMember | cg-domain-prefix-generator.py:134-139 | a (site, element, row) triple is in the planned unit list `Units` exactly when the site is in the hub list, the element belongs to it and the row is in the table |
| Run.PlannedUnitsMember | cg-domain-prefix-generator.py:128-139 | a triple is a planned unit (`PlannedUnits`) exactly when its site is in the site list with role `HUB`, its element belongs to that site, and its row is in the domain table |
| Run.RowUnitsAppend | cg-domain-prefix-generator.py:137 | domains are the innermost loop, visited in table (`ip_prefix_dict.keys()`) order on each element |
| Run.RowUnitsSingle | cg-domain-prefix-generator.py:137-139 | one table row on an element gives exactly one unit for that site, element and row |
| Run.UnitsAppend | cg-domain-prefix-generator.py:134-139 | hub sites form the outermost loop |
| Run.ElementUnitsAppend | cg-domain-prefix-generator.py:135-139 | elements form the middle loop, in element-list order |
| Run.Advance | cg-domain-prefix-generator.py:139 | one unit consumes one filter-list read, and is a visit of that unit or a fatal stop naming its site and element; when its writes all fail the store is unchanged |
| Run.RunUnits | cg-domain-prefix-generator.py:134-139 | event i belongs to unit i; it is fatal exactly when the i-th filter-list read fails; only the last event can be fatal, and the run stops early only there; when all writes fail the store is unchanged |
| Run.RunUnitsFrame | cg-domain-prefix-generator.py:134-139 | a key that belongs to none of the units the run reached keeps its filter list; this covers the keys of units after a fatal stop |
| Run.RunUnitsSingle | cg-domain-prefix-generator.py:139 | a run over one unit is that unit's `add_prefix_to_site` call: its event, store and calls are `ReconcileUnit`'s on the given store |
| Run.RunUnitsIsFold | cg-domain-prefix-generator.py:134-139 | bridge: the run is the generic unit loop `Fold` with the per-unit reconciliation as its step, so the `Fold` lemmas below apply to the run |
| Run.FoldLength | cg-domain-prefix-generator.py:134-139 | a loop over the units has one event per unit unless it stopped at a fatal event |
| Run.FoldAppendStopped | cg-domain-prefix-generator.py:134-139 | after a fatal stop no later unit runs |
| Run.FoldAppendGoesOn | cg-domain-prefix-generator.py:134-139 | without a fatal stop, the later units run from the store and calls the earlier ones left |
| Run.RunUnitsAppend | cg-domain-prefix-generator.py:134-139 | a run over a split unit list is the run over the first part followed by the run over the second, which starts from the store the first part left; a fatal stop in the first part ends the run there |
| Run.FoldNth | cg-domain-prefix-generator.py:134-139 | the i-th event is the step on the i-th unit, taken from what the units before it left |
| Run.RunUnitsNth | cg-domain-prefix-generator.py:134-149 | event i is `ReconcileUnit` on unit i, run on the store and calls the earlier units left, so each unit re-reads the element's filter list as the earlier writes changed it |
| Run.RunShapeIgnoresWrites | cg-domain-prefix-generator.py:165-183 | write outcomes and the store never change which units are visited or where the run stops |
| Run.RunUnitsAllReadsOk | cg-domain-prefix-generator.py:134-139 | when every filter-list read succeeds, every unit is visited in order |
| Run.Go | cg-domain-prefix-generator.py:88-139 | the first failed inventory read (service-binding maps, then sites, then elements) is the only event and changes nothing; otherwise the trace is the run of the planned units from the caller's store with call counters at zero, and has the shape above |
| Run.GoVisitsPlannedUnits | cg-domain-prefix-generator.py:128-139 | when every read succeeds, the run visits every planned unit in order |
| Run.BranchContribution | cg-domain-prefix-generator.py:116-124 | a branch site bound to the domain, whose one local network holds a real and an empty prefix, contributes just the real prefix |
| Run.ScenarioTable | cg-domain-prefix-generator.py:107-124 | a domain bound to one branch site with one real and one empty prefix gets a single row with that prefix |
| Run.ScenarioUnits | cg-domain-prefix-generator.py:128-139 | a hub with two elements and a branch with one give exactly two units, the hub's elements |
| Run.ScenarioFirstCreate | cg-domain-prefix-generator.py:172-181 | on an empty element the scenario's `Corp WAN?` row is created under the server's first id |
| Run.ScenarioSecondCreate | cg-domain-prefix-generator.py:172-181 | on the second element the same body is created under the second id, and the first element is untouched |
| Run.ScenarioRun | cg-domain-prefix-generator.py:134-139 | the two units run in order give two creates and a store with one filter per element |
| Run.TwoHubElementsScenario | cg-domain-prefix-generator.py:107-185 | two hub elements, one domain, one prefix: two creates with the identical single-rule body, one per element, and nothing else in the store |

## Left out

- Dictionary order on Python interpreters older than 3.7: there, the order in which domains are visited on each hub element (cg-domain-prefix-generator.py:137) is unspecified. The model fixes insertion order, so it describes only runs on 3.7 and later.
- Authentication, argument parsing and logout (cg-domain-prefix-generator.py:28-84, 187-198). They do not affect what is written.
- Progress and log output (`print`). The stale `site` variable printed at cg-domain-prefix-generator.py:138 affects only the log text.
- The guard `service_binding not in ip_prefix_dict` (cg-domain-prefix-generator.py:144-145) is not modelled. It cannot fire, because the caller iterates the dictionary's own keys.
- The status of the local-prefix-set read (cg-domain-prefix-generator.py:117-118) is not checked by the script. The model takes each site's local networks as given, and a site without content contributes nothing.
- A filter object without a `prefix_filter_list` key, or a site or element record missing a field: the script would raise `KeyError`. The model assumes well-formed records.
- Prefix strings are copied verbatim. No CIDR validation or IPv6 handling is modelled, and neither is done by the script.
- Which fields a full update sends besides name and rules is modelled by `Reconcile.WithRules`, which keeps them. Server-side validation of the update is not modelled.
- Run-level idempotence: re-running the whole script is not stated as one lemma. Stability is proved per unit (`Reconcile.ReconcileTwiceStable`, `Reconcile.SecondPassStable`). Across units, two domains whose names collide overwrite each other's rules on every run (`Reconcile.CollidingNamesShareFilter`).

=== FILE: aggregation.dfy ===
/**
 * Prefix aggregation: for every domain, the IPv4 prefixes declared in the
 * local prefix sets of the sites bound to it, and the domain table
 * (a dictionary keyed by domain id) that the reconciliation iterates over.
 */
module Aggregation {
  import opened Wrappers
  import opened Inventory
  import opened Naming

  /** Python truthiness of an `ipv4_prefix` field: present and not the empty string. */
  predicate Truthy(v: Option<string>) {
    v.Some? && v.value != ""
  }

  /** The prefixes one `prefix_set` contributes, in entry order. */
  function SetPrefixes(entries: seq<PrefixEntry>): (r: seq<string>)
    ensures |r| <= |entries|
    ensures forall p :: p in r ==> p != ""
  {
    if |entries| == 0 then []
    else
      var last := entries[|entries| - 1];
      SetPrefixes(entries[..|entries| - 1]) + (if Truthy(last.ipv4Prefix) then [last.ipv4Prefix.value] else [])
  }

  /** The `ipv4_prefix` fields of a prefix set, absent ones included. */
  function Ipv4Fields(entries: seq<PrefixEntry>): (fields: seq<Option<string>>)
    ensures |fields| == |entries|
    ensures forall i :: 0 <= i < |entries| ==> fields[i] == entries[i].ipv4Prefix
  {
    if |entries| == 0 then []
    else Ipv4Fields(entries[..|entries| - 1]) + [entries[|entries| - 1].ipv4Prefix]
  }

  /**
   * Nothing is dropped, nothing is invented and duplicates are kept: every
   * non-empty prefix occurs in the output exactly as often as an entry carries it.
   */
  lemma {:induction false} SetPrefixesExact(entries: seq<PrefixEntry>, p: string)
    requires p != ""
    ensures multiset(SetPrefixes(entries))[p] == multiset(Ipv4Fields(entries))[Some(p)]
  {
    if |entries| > 0 {
      var n := |entries| - 1;
      var last := entries[n].ipv4Prefix;
      var tail := if Truthy(last) then [last.value] else [];
      SetPrefixesExact(entries[..n], p);
      var before, fields := SetPrefixes(entries[..n]), Ipv4Fields(entries[..n]);
      assert multiset(SetPrefixes(entries))[p] == multiset(before)[p] + multiset(tail)[p] by {
        assert SetPrefixes(entries) == before + tail;
      }
      assert multiset(Ipv4Fields(entries))[Some(p)] == multiset(fields)[Some(p)] + multiset([last])[Some(p)];
      assert multiset(tail)[p] == multiset([last])[Some(p)];
    }
  }

  /** Entries are walked in order and repeats are kept: the prefixes of a split prefix set are concatenated. */
  lemma {:induction false} SetPrefixesAppend(a: seq<PrefixEntry>, b: seq<PrefixEntry>)
    ensures SetPrefixes(a + b) == SetPrefixes(a) + SetPrefixes(b)
  {
    if |b| == 0 {
      assert a + b == a;
    } else {
      var n := |b| - 1;
      assert (a + b)[..|a + b| - 1] == a + b[..n];
      assert (a + b)[|a + b| - 1] == b[n];
      SetPrefixesAppend(a, b[..n]);
    }
  }

  /** One entry contributes its `ipv4_prefix` when that is truthy, and nothing otherwise. */
  lemma SetPrefixesSingle(e: PrefixEntry)
    ensures SetPrefixes([e]) == if Truthy(e.ipv4Prefix) then [e.ipv4Prefix.value] else []
  {
    assert [e][..0] == [];
  }

  /** A prefix is contributed by a prefix set exactly when some entry carries it and it is non-empty. */
  lemma {:induction false} SetPrefixesMember(entries: seq<PrefixEntry>, p: string)
    ensures p in SetPrefixes(entries) <==> p != "" && exists j :: 0 <= j < |entries| && entries[j].ipv4Prefix == Some(p)
  {
    if p != "" {
      SetPrefixesExact(entries, p);
      var fields := Ipv4Fields(entries);
      if Some(p) in fields {
        var j :| 0 <= j < |fields| && fields[j] == Some(p);
        assert entries[j].ipv4Prefix == Some(p);
      }
      if exists j :: 0 <= j < |entries| && entries[j].ipv4Prefix == Some(p) {
        var j :| 0 <= j < |entries| && entries[j].ipv4Prefix == Some(p);
        assert fields[j] == Some(p);
      }
    }
  }

  /** The prefixes a site's local networks contribute, networks in order, entries in order. */
  function NetworkPrefixes(networks: seq<LocalNetwork>): (r: seq<string>)
    ensures forall p :: p in r ==> p != ""
  {
    if |networks| == 0 then []
    else NetworkPrefixes(networks[..|networks| - 1]) + SetPrefixes(networks[|networks| - 1].prefixSet)
  }

  /** `network` has an entry carrying `p`. */
  predicate Carries(network: LocalNetwork, p: string) {
    exists j :: 0 <= j < |network.prefixSet| && network.prefixSet[j].ipv4Prefix == Some(p)
  }

  /** The last network's prefixes follow those of the networks before it. */
  lemma NetworkPrefixesLast(networks: seq<LocalNetwork>, p: string)
    requires |networks| > 0
    ensures p in NetworkPrefixes(networks) <==>
      p in NetworkPrefixes(networks[..|networks| - 1]) || (p != "" && Carries(networks[|networks| - 1], p))
  {
    SetPrefixesMember(networks[|networks| - 1].prefixSet, p);
  }

  /** Every prefix coming out of a site's networks is carried by one of them. */
  lemma {:induction false} NetworkPrefixesSound(networks: seq<LocalNetwork>, p: string)
    requires p in NetworkPrefixes(networks)
    ensures p != "" && exists i :: 0 <= i < |networks| && Carries(networks[i], p)
  {
    var n := |networks| - 1;
    NetworkPrefixesLast(networks, p);
    if p in NetworkPrefixes(networks[..n]) {
      NetworkPrefixesSound(networks[..n], p);
      var i :| 0 <= i < n && Carries(networks[..n][i], p);
      assert networks[..n][i] == networks[i];
    }
  }

  /** Every non-empty prefix carried by one of a site's networks comes out. */
  lemma {:induction false} NetworkPrefixesComplete(networks: seq<LocalNetwork>, p: string, i: nat)
    requires p != "" && i < |networks| && Carries(networks[i], p)
    ensures p in NetworkPrefixes(networks)
  {
    var n := |networks| - 1;
    NetworkPrefixesLast(networks, p);
    if i < n {
      assert networks[..n][i] == networks[i];
      NetworkPrefixesComplete(networks[..n], p, i);
    }
  }

  /** A prefix comes out of a site's networks exactly when it is non-empty and some entry of some network carries it. */
  lemma {:induction false} NetworkPrefixesMember(networks: seq<LocalNetwork>, p: string)
    ensures p in NetworkPrefixes(networks) <==> p != "" && exists i :: 0 <= i < |networks| && Carries(networks[i], p)
  {
    if p in NetworkPrefixes(networks) {
      NetworkPrefixesSound(networks, p);
    }
    forall i | 0 <= i < |networks| && p != "" && Carries(networks[i], p)
      ensures p in NetworkPrefixes(networks)
    {
      NetworkPrefixesComplete(networks, p, i);
    }
  }

  /** Networks are walked in order and repeats across networks are kept: the prefixes of a split network list are concatenated. */
  lemma {:induction false} NetworkPrefixesAppend(a: seq<LocalNetwork>, b: seq<LocalNetwork>)
    ensures NetworkPrefixes(a + b) == NetworkPrefixes(a) + NetworkPrefixes(b)
  {
    if |b| == 0 {
      assert a + b == a;
    } else {
      var n := |b| - 1;
      var ab := a + b;
      assert ab[..|ab| - 1] == a + b[..n];
      assert ab[|ab| - 1] == b[n];
      calc {
        NetworkPrefixes(ab);
        NetworkPrefixes(a + b[..n]) + SetPrefixes(b[n].prefixSet);
        { NetworkPrefixesAppend(a, b[..n]); }
        (NetworkPrefixes(a) + NetworkPrefixes(b[..n])) + SetPrefixes(b[n].prefixSet);
        NetworkPrefixes(a) + (NetworkPrefixes(b[..n]) + SetPrefixes(b[n].prefixSet));
        NetworkPrefixes(a) + NetworkPrefixes(b);
      }
    }
  }

  /** One network contributes the prefixes of its prefix set. */
  lemma NetworkPrefixesSingle(network: LocalNetwork)
    ensures NetworkPrefixes([network]) == SetPrefixes(network.prefixSet)
  {
    assert [network][..0] == [];
  }

  /** The local networks read for a site; a site whose read yields no content has none. */
  function SiteNetworks(localSets: map<Id, seq<LocalNetwork>>, site: Site): seq<LocalNetwork> {
    if site.id in localSets then localSets[site.id] else []
  }

  /** What a single site contributes to a domain's aggregate. */
  function Contribution(localSets: map<Id, seq<LocalNetwork>>, site: Site, domain: Id): seq<string> {
    if site.serviceBinding == Some(domain) then NetworkPrefixes(SiteNetworks(localSets, site)) else []
  }

  /**
   * A site contributes only when it is bound to the domain, and a bound site
   * whose local prefix set came back without content contributes nothing.
   */
  lemma ContributionWithoutContent(localSets: map<Id, seq<LocalNetwork>>, site: Site, domain: Id)
    ensures site.serviceBinding != Some(domain) ==> Contribution(localSets, site, domain) == []
    ensures site.id !in localSets ==> Contribution(localSets, site, domain) == []
  {
  }

  /** A domain's aggregate: the contributions of the sites bound to it, in site-list order. */
  function Aggregate(sites: seq<Site>, domain: Id, localSets: map<Id, seq<LocalNetwork>>): (r: seq<string>)
    ensures forall p :: p in r ==> p != ""
  {
    if |sites| == 0 then []
    else
      var n := |sites| - 1;
      Aggregate(sites[..n], domain, localSets) + Contribution(localSets, sites[n], domain)
  }

  /** The aggregate of a split site list is the concatenation of the two aggregates: encounter order is site order. */
  lemma {:induction false} AggregateAppend(a: seq<Site>, b: seq<Site>, domain: Id, localSets: map<Id, seq<LocalNetwork>>)
    ensures Aggregate(a + b, domain, localSets) == Aggregate(a, domain, localSets) + Aggregate(b, domain, localSets)
  {
    if |b| == 0 {
      assert a + b == a;
    } else {
      var n := |b| - 1;
      assert (a + b)[..|a + b| - 1] == a + b[..n];
      assert (a + b)[|a + b| - 1] == b[n];
      AggregateAppend(a, b[..n], domain, localSets);
      assert Aggregate(b, domain, localSets) == Aggregate(b[..n], domain, localSets) + Contribution(localSets, b[n], domain);
    }
  }

  /** One site's aggregate is its contribution: empty unless it is bound to the domain. */
  lemma AggregateSingle(site: Site, domain: Id, localSets: map<Id, seq<LocalNetwork>>)
    ensures Aggregate([site], domain, localSets) == Contribution(localSets, site, domain)
  {
    assert [site][..0] == [];
  }

  /** `site` is bound to `domain` and declares prefix `p`. */
  predicate Declares(localSets: map<Id, seq<LocalNetwork>>, site: Site, domain: Id, p: string) {
    p in Contribution(localSets, site, domain)
  }

  /** The last site's contribution follows the aggregate of the ones before it. */
  lemma AggregateLast(sites: seq<Site>, domain: Id, localSets: map<Id, seq<LocalNetwork>>, p: string)
    requires |sites| > 0
    ensures p in Aggregate(sites, domain, localSets) <==>
      p in Aggregate(sites[..|sites| - 1], domain, localSets) || Declares(localSets, sites[|sites| - 1], domain, p)
  {
  }

  /** Every prefix in a domain's aggregate is declared by a site bound to that domain. */
  lemma {:induction false} AggregateSound(sites: seq<Site>, domain: Id, localSets: map<Id, seq<LocalNetwork>>, p: string)
    requires p in Aggregate(sites, domain, localSets)
    ensures exists i :: 0 <= i < |sites| && Declares(localSets, sites[i], domain, p)
  {
    var n := |sites| - 1;
    AggregateLast(sites, domain, localSets, p);
    if p in Aggregate(sites[..n], domain, localSets) {
      AggregateSound(sites[..n], domain, localSets, p);
      var i :| 0 <= i < n && Declares(localSets, sites[..n][i], domain, p);
      assert sites[..n][i] == sites[i];
    } else {
      assert Declares(localSets, sites[n], domain, p);
    }
  }

  /** Every prefix declared by a site bound to a domain is in that domain's aggregate. */
  lemma {:induction false} AggregateComplete(sites: seq<Site>, domain: Id, localSets: map<Id, seq<LocalNetwork>>, p: string, i: nat)
    requires i < |sites| && Declares(localSets, sites[i], domain, p)
    ensures p in Aggregate(sites, domain, localSets)
  {
    var n := |sites| - 1;
    if i < n {
      assert sites[..n][i] == sites[i];
      AggregateComplete(sites[..n], domain, localSets, p, i);
      assert p in Aggregate(sites[..n], domain, localSets);
    } else {
      assert Declares(localSets, sites[n], domain, p);
    }
    AggregateLast(sites, domain, localSets, p);
  }

  /** A prefix is in a domain's aggregate exactly when a site bound to that domain declares it. */
  lemma {:induction false} AggregateMember(sites: seq<Site>, domain: Id, localSets: map<Id, seq<LocalNetwork>>, p: string)
    ensures p in Aggregate(sites, domain, localSets) <==> exists i :: 0 <= i < |sites| && Declares(localSets, sites[i], domain, p)
  {
    if p in Aggregate(sites, domain, localSets) {
      AggregateSound(sites, domain, localSets, p);
    }
    forall i | 0 <= i < |sites| && Declares(localSets, sites[i], domain, p)
      ensures p in Aggregate(sites, domain, localSets)
    {
      AggregateComplete(sites, domain, localSets, p, i);
    }
  }

  /** A domain no site is bound to gets no prefixes. */
  lemma {:induction false} AggregateUnbound(sites: seq<Site>, domain: Id, localSets: map<Id, seq<LocalNetwork>>)
    requires forall i :: 0 <= i < |sites| ==> sites[i].serviceBinding != Some(domain)
    ensures Aggregate(sites, domain, localSets) == []
  {
    var r := Aggregate(sites, domain, localSets);
    if r != [] {
      AggregateSound(sites, domain, localSets, r[0]);
    }
  }

  // ---------------------------------------------------------------------------
  // The domain table
  // ---------------------------------------------------------------------------

  /** One row of the table: a domain id, its filter name and its aggregated prefixes. */
  datatype Entry = Entry(domain: Id, filterName: string, prefixes: seq<string>)

  /** The row a service-binding map produces. */
  function EntryFor(service: Domain, sites: seq<Site>, localSets: map<Id, seq<LocalNetwork>>): Entry {
    Entry(service.id, FilterName(service.name), Aggregate(sites, service.id, localSets))
  }

  function Ids(table: seq<Entry>): seq<Id> {
    seq(|table|, i requires 0 <= i < |table| => table[i].domain)
  }

  function ServiceIds(services: seq<Domain>): seq<Id> {
    seq(|services|, i requires 0 <= i < |services| => services[i].id)
  }

  /** Dictionary keys are unique. */
  predicate DistinctIds(table: seq<Entry>) {
    forall i, j :: 0 <= i < j < |table| ==> table[i].domain != table[j].domain
  }

  /** The order a dictionary's keys come out in: first insertions, later repeats dropped. */
  function FirstOccurrences(ids: seq<Id>): (r: seq<Id>)
    ensures forall x :: x in r <==> x in ids
  {
    if |ids| == 0 then []
    else
      var before := FirstOccurrences(ids[..|ids| - 1]);
      var last := ids[|ids| - 1];
      assert forall x :: x in ids <==> x in ids[..|ids| - 1] || x == last;
      if last in before then before else before + [last]
  }

  /** Where key `d` sits in the table, or the table's length when it is absent. */
  function Position(table: seq<Entry>, d: Id): (i: nat)
    ensures i <= |table|
    ensures i < |table| ==> table[i].domain == d
    ensures forall j :: 0 <= j < i ==> table[j].domain != d
  {
    if |table| == 0 then 0
    else if table[0].domain == d then 0
    else 1 + Position(table[1..], d)
  }

  /** Overwriting the row at position i keeps every row under another key. */
  lemma OverwriteKeeps(table: seq<Entry>, i: nat, e: Entry)
    requires i < |table| && table[i].domain == e.domain
    ensures forall x :: x in table && x.domain != e.domain ==> x in table[i := e]
  {
    forall x | x in table && x.domain != e.domain
      ensures x in table[i := e]
    {
      var k :| 0 <= k < |table| && table[k] == x;
      assert table[i := e][k] == x;
    }
  }

  /**
   * Assigning a row to a dictionary key: an existing key keeps its position
   * and gets the new value; a new key is added at the end.
   */
  function Upsert(table: seq<Entry>, e: Entry): (r: seq<Entry>)
    requires DistinctIds(table)
    ensures DistinctIds(r)
    ensures Ids(r) == if e.domain in Ids(table) then Ids(table) else Ids(table) + [e.domain]
  {
    var i := Position(table, e.domain);
    if i < |table| then
      assert Ids(table)[i] == e.domain;
      assert Ids(table[i := e]) == Ids(table);
      table[i := e]
    else
      assert e.domain !in Ids(table);
      assert Ids(table + [e]) == Ids(table) + [e.domain];
      table + [e]
  }

  /**
   * After an assignment the table holds the new row and every row under
   * another key, and nothing else: the old row under its key is dropped.
   */
  lemma UpsertMembers(table: seq<Entry>, e: Entry)
    requires DistinctIds(table)
    ensures var r := Upsert(table, e);
      && e in r
      && (forall x :: x in r ==> x == e || (x in table && x.domain != e.domain))
      && (forall x :: x in table && x.domain != e.domain ==> x in r)
  {
    var i := Position(table, e.domain);
    if i < |table| {
      OverwriteKeeps(table, i, e);
      var r := table[i := e];
      forall x | x in r
        ensures x == e || (x in table && x.domain != e.domain)
      {
        var k :| 0 <= k < |r| && r[k] == x;
        if k != i {
          assert table[k] == x;
        }
      }
    }
  }

  /** `rows[k]` is the last row assigned under its key. */
  predicate LastRow(rows: seq<Entry>, k: int) {
    0 <= k < |rows| && forall k' :: k < k' < |rows| ==> rows[k'].domain != rows[k].domain
  }

  /** Assigning rows to a dictionary one after the other. */
  function Assign(rows: seq<Entry>): (r: seq<Entry>)
    ensures DistinctIds(r)
  {
    if |rows| == 0 then [] else Upsert(Assign(rows[..|rows| - 1]), rows[|rows| - 1])
  }

  /** The dictionary's keys come out in first-insertion order. */
  lemma {:induction false} AssignIds(rows: seq<Entry>)
    ensures Ids(Assign(rows)) == FirstOccurrences(Ids(rows))
  {
    if |rows| > 0 {
      var n := |rows| - 1;
      AssignIds(rows[..n]);
      IdsInit(rows);
      FirstOccurrencesInit(Ids(rows));
      AssignInit(rows);
    }
  }

  /** Assigning the rows is assigning all but the last, then the last. */
  lemma AssignInit(rows: seq<Entry>)
    requires |rows| > 0
    ensures Assign(rows) == Upsert(Assign(rows[..|rows| - 1]), rows[|rows| - 1])
  {
  }

  /** The first occurrences of a list gain its last element only when that is new. */
  lemma FirstOccurrencesInit(ids: seq<Id>)
    requires |ids| > 0
    ensures var f := FirstOccurrences(ids[..|ids| - 1]);
      FirstOccurrences(ids) == if ids[|ids| - 1] in f then f else f + [ids[|ids| - 1]]
  {
  }

  /** The ids of all rows but the last, and the last row's id. */
  lemma IdsInit(rows: seq<Entry>)
    requires |rows| > 0
    ensures Ids(rows)[..|rows| - 1] == Ids(rows[..|rows| - 1]) && Ids(rows)[|rows| - 1] == rows[|rows| - 1].domain
  {
  }

  /** The last assignment wins over earlier rows with its key. */
  lemma AssignLast(rows: seq<Entry>, x: Entry)
    requires |rows| > 0
    ensures x in Assign(rows) <==>
      x == rows[|rows| - 1] || (x in Assign(rows[..|rows| - 1]) && x.domain != rows[|rows| - 1].domain)
  {
    UpsertMembers(Assign(rows[..|rows| - 1]), rows[|rows| - 1]);
  }

  /** The dictionary holds exactly the last row assigned under each key. */
  lemma {:induction false} AssignRows(rows: seq<Entry>, x: Entry)
    ensures x in Assign(rows) <==> exists k :: LastRow(rows, k) && x == rows[k]
  {
    if |rows| > 0 {
      var n := |rows| - 1;
      AssignRows(rows[..n], x);
      AssignLast(rows, x);
      if x in Assign(rows) {
        AssignRowsIn(rows, rows[..n], x);
      } else {
        AssignRowsOut(rows, rows[..n], x);
      }
    }
  }

  /** A row in the dictionary after one more assignment is a last row. */
  lemma AssignRowsIn(rows: seq<Entry>, before: seq<Entry>, x: Entry)
    requires |rows| > 0 && before == rows[..|rows| - 1]
    requires x == rows[|rows| - 1] || (x.domain != rows[|rows| - 1].domain && exists k :: LastRow(before, k) && x == before[k])
    ensures exists k :: LastRow(rows, k) && x == rows[k]
  {
    var n := |rows| - 1;
    if x == rows[n] {
      assert LastRow(rows, n);
    } else {
      var k :| LastRow(before, k) && x == before[k];
      LastRowExtend(rows, k);
    }
  }

  /** A row missing from the dictionary after one more assignment is no last row. */
  lemma AssignRowsOut(rows: seq<Entry>, before: seq<Entry>, x: Entry)
    requires |rows| > 0 && before == rows[..|rows| - 1]
    requires x != rows[|rows| - 1]
    requires x.domain == rows[|rows| - 1].domain || !exists k :: LastRow(before, k) && x == before[k]
    ensures !exists k :: LastRow(rows, k) && x == rows[k]
  {
    var n := |rows| - 1;
    forall k | LastRow(rows, k)
      ensures x != rows[k]
    {
      if k < n {
        LastRowRestrict(rows, k);
        assert rows[k] == before[k];
      }
    }
  }

  /** A last row stays last when a row with another key is appended. */
  lemma LastRowExtend(rows: seq<Entry>, k: int)
    requires |rows| > 0 && LastRow(rows[..|rows| - 1], k)
    requires rows[k].domain != rows[|rows| - 1].domain
    ensures LastRow(rows, k)
  {
    var before := rows[..|rows| - 1];
    forall k' | k < k' < |rows|
      ensures rows[k'].domain != rows[k].domain
    {
      if k' < |rows| - 1 {
        assert rows[k'] == before[k'];
      }
    }
  }

  /** A last row other than the final one is last among the rows before the final one. */
  lemma LastRowRestrict(rows: seq<Entry>, k: int)
    requires LastRow(rows, k) && k < |rows| - 1
    ensures LastRow(rows[..|rows| - 1], k) && rows[k].domain != rows[|rows| - 1].domain
  {
  }

  /** Rows with distinct keys are kept as they are, in order. */
  lemma {:induction false} AssignDistinct(rows: seq<Entry>)
    requires DistinctIds(rows)
    ensures Assign(rows) == rows
  {
    if |rows| > 0 {
      var n := |rows| - 1;
      var before := rows[..n];
      assert DistinctIds(before);
      AssignDistinct(before);
      assert rows[n].domain !in Ids(before);
      UpsertNewKey(before, rows[n]);
      assert before + [rows[n]] == rows;
    }
  }

  /** A key not yet in the dictionary is appended. */
  lemma UpsertNewKey(table: seq<Entry>, e: Entry)
    requires DistinctIds(table)
    requires e.domain !in Ids(table)
    ensures Upsert(table, e) == table + [e]
  {
  }

  /** One row per service-binding map, in list order. */
  function Rows(services: seq<Domain>, sites: seq<Site>, localSets: map<Id, seq<LocalNetwork>>): (rows: seq<Entry>)
    ensures |rows| == |services|
    ensures Ids(rows) == ServiceIds(services)
  {
    seq(|services|, i requires 0 <= i < |services| => EntryFor(services[i], sites, localSets))
  }

  /** The aggregation loop over the service-binding maps: each one's row is (re)assigned under its id. */
  function BuildTable(services: seq<Domain>, sites: seq<Site>, localSets: map<Id, seq<LocalNetwork>>): (r: seq<Entry>)
    ensures DistinctIds(r)
    ensures Ids(r) == FirstOccurrences(ServiceIds(services))
  {
    AssignIds(Rows(services, sites, localSets));
    Assign(Rows(services, sites, localSets))
  }

  /** `services[k]` is the last service-binding map with its id. */
  predicate LastWithId(services: seq<Domain>, k: int) {
    0 <= k < |services| && forall k' :: k < k' < |services| ==> services[k'].id != services[k].id
  }

  /**
   * Every row of the table is the row of the last service-binding map with
   * that id, and every such last occurrence has its row in the table.
   */
  lemma BuildTableRows(services: seq<Domain>, sites: seq<Site>, localSets: map<Id, seq<LocalNetwork>>, x: Entry)
    ensures x in BuildTable(services, sites, localSets) <==>
      exists k :: LastWithId(services, k) && x == EntryFor(services[k], sites, localSets)
  {
    var rows := Rows(services, sites, localSets);
    AssignRows(rows, x);
    assert forall k :: 0 <= k < |rows| ==> rows[k].domain == services[k].id;
    assert forall k :: LastRow(rows, k) <==> LastWithId(services, k);
  }

  /** With distinct ids the table has one row per service-binding map, in list order. */
  lemma BuildTableDistinct(services: seq<Domain>, sites: seq<Site>, localSets: map<Id, seq<LocalNetwork>>)
    requires forall i, j :: 0 <= i < j < |services| ==> services[i].id != services[j].id
    ensures BuildTable(services, sites, localSets) == Rows(services, sites, localSets)
    ensures forall i :: 0 <= i < |services| ==> BuildTable(services, sites, localSets)[i] == EntryFor(services[i], sites, localSets)
  {
    var rows := Rows(services, sites, localSets);
    assert forall k :: 0 <= k < |rows| ==> rows[k].domain == services[k].id;
    AssignDistinct(rows);
  }

  /**
   * A repeated id resets its row: with rows for ids d, d', d in that order,
   * the table has the last row for d in the first position and then the row
   * for d'.
   */
  lemma AssignRepeated(a: Entry, b: Entry, c: Entry)
    requires a.domain == c.domain && a.domain != b.domain
    ensures Assign([a, b, c]) == [c, b]
  {
    assert [a, b, c][..2] == [a, b] && [a, b][..1] == [a] && [a][..0] == [];
    assert Assign([a]) == [a] by {
      assert Assign([a]) == Upsert([], a);
      assert Position([], a.domain) == 0;
    }
    assert Assign([a, b]) == [a, b] by {
      assert Assign([a, b]) == Upsert([a], b);
      assert [a][1..] == [];
      assert Position([a], b.domain) == 1;
    }
    assert Assign([a, b, c]) == Upsert([a, b], c);
    assert Position([a, b], c.domain) == 0;
    assert [a, b][0 := c] == [c, b];
  }
}

=== FILE: inventory.dfy ===
/**
 * The inventory records the reconciliation script reads from the control plane:
 * service-binding domains, sites, elements and the per-site local prefix sets.
 * Only the fields the script looks at are kept.
 */
module Inventory {
  import opened Wrappers

  /** Control-plane object identifiers are opaque strings. */
  type Id = string

  /** A service-binding map ("domain"). */
  datatype Domain = Domain(id: Id, name: string)

  /** A site; `serviceBinding` is the id of the domain it belongs to, if any. */
  datatype Site = Site(id: Id, name: string, serviceBinding: Option<Id>, clusterRole: string)

  /** A network element (device); `siteId` is the site it is assigned to, if any. */
  datatype Element = Element(id: Id, name: string, siteId: Option<Id>)

  /** One entry of a local network's `prefix_set`; only `ipv4_prefix` is read. */
  datatype PrefixEntry = PrefixEntry(ipv4Prefix: Option<string>)

  /** One element of `configured.local_prefix_set.local_networks`. */
  datatype LocalNetwork = LocalNetwork(prefixSet: seq<PrefixEntry>)

  /** The status-plus-payload answer of one inventory read. */
  datatype ReadResult<T> = ReadFailed | ReadOk(items: T)
}

=== FILE: naming.dfy ===
/**
 * Derivation of a routing prefix filter's name from a domain name.
 * Filter names may contain neither spaces nor question marks, so both are
 * turned into underscores after the fixed prefix is prepended.
 */
module Naming {

  const FilterNamePrefix: string := "AUTO_DOMAIN_"

  /** Characters a routing prefix filter name may not contain. */
  predicate Disallowed(c: char) {
    c == ' ' || c == '?'
  }

  /** What one character of a name becomes after sanitising. */
  function Clean(c: char): char {
    if Disallowed(c) then '_' else c
  }

  /** Every occurrence of `from` in `s` replaced by `to` (Python's `str.replace` on one character). */
  function Replace(s: string, from: char, to: char): (r: string)
    ensures |r| == |s|
    ensures forall i :: 0 <= i < |s| ==> r[i] == (if s[i] == from then to else s[i])
  {
    if |s| == 0 then ""
    else Replace(s[..|s| - 1], from, to) + [if s[|s| - 1] == from then to else s[|s| - 1]]
  }

  /** Spaces, then question marks, replaced by underscores. */
  function Sanitise(s: string): (r: string)
    ensures |r| == |s|
    ensures forall i :: 0 <= i < |s| ==> r[i] == Clean(s[i])
    ensures forall i :: 0 <= i < |r| ==> !Disallowed(r[i])
  {
    Replace(Replace(s, ' ', '_'), '?', '_')
  }

  /** The name of the routing prefix filter that carries a domain's prefixes. */
  function FilterName(domainName: string): (r: string)
    ensures |r| == |FilterNamePrefix| + |domainName|
    ensures r[..|FilterNamePrefix|] == FilterNamePrefix
    ensures forall i :: 0 <= i < |domainName| ==> r[|FilterNamePrefix| + i] == Clean(domainName[i])
    ensures forall i :: 0 <= i < |r| ==> !Disallowed(r[i])
  {
    Sanitise(FilterNamePrefix + domainName)
  }

  /** Sanitising an already sanitised string changes nothing. */
  lemma {:induction false} SanitiseIdempotent(s: string)
    ensures Sanitise(Sanitise(s)) == Sanitise(s)
  {
    var once := Sanitise(s);
    var twice := Sanitise(once);
    assert forall i :: 0 <= i < |twice| ==> twice[i] == once[i] by {
      forall i | 0 <= i < |twice|
        ensures twice[i] == once[i]
      {
        assert !Disallowed(once[i]);
      }
    }
  }

  /** Sanitising distributes over concatenation. */
  lemma {:induction false} SanitiseAppend(a: string, b: string)
    ensures Sanitise(a + b) == Sanitise(a) + Sanitise(b)
  {
    var l := Sanitise(a + b);
    var r := Sanitise(a) + Sanitise(b);
    assert |l| == |r|;
    forall i | 0 <= i < |l|
      ensures l[i] == r[i]
    {
      assert l[i] == Clean((a + b)[i]);
      if i < |a| {
        assert (a + b)[i] == a[i];
        assert r[i] == Sanitise(a)[i];
      } else {
        assert (a + b)[i] == b[i - |a|];
        assert r[i] == Sanitise(b)[i - |a|];
      }
    }
    assert l == r;
  }

  /** A filter name is a fixed point of sanitising, and equals the prefix followed by the sanitised domain name. */
  lemma FilterNameSanitised(domainName: string)
    ensures Sanitise(FilterName(domainName)) == FilterName(domainName)
    ensures FilterName(domainName) == FilterNamePrefix + Sanitise(domainName)
  {
    SanitiseIdempotent(FilterNamePrefix + domainName);
    SanitiseAppend(FilterNamePrefix, domainName);
    SanitiseIdempotent(FilterNamePrefix);
    var p := Sanitise(FilterNamePrefix);
    forall i | 0 <= i < |p|
      ensures p[i] == FilterNamePrefix[i]
    {
      assert !Disallowed(FilterNamePrefix[i]);
    }
  }

  /** Equal filter names come from names that agree after folding. */
  lemma FilterNameAgree(a: string, b: string)
    requires FilterName(a) == FilterName(b)
    ensures |a| == |b| && forall i :: 0 <= i < |a| ==> Clean(a[i]) == Clean(b[i])
  {
    var n := |FilterNamePrefix|;
    FilterNameSanitised(a);
    FilterNameSanitised(b);
    assert (FilterNamePrefix + Sanitise(a))[n..] == Sanitise(a);
    assert (FilterNamePrefix + Sanitise(b))[n..] == Sanitise(b);
    var sa, sb := Sanitise(a), Sanitise(b);
    assert sa == sb;
    forall i | 0 <= i < |a|
      ensures Clean(a[i]) == Clean(b[i])
    {
      assert sa[i] == Clean(a[i]);
      assert sb[i] == Clean(b[i]);
    }
  }

  /** Names that agree after folding sanitise to the same string. */
  lemma SanitiseFolded(a: string, b: string)
    requires |a| == |b| && forall i :: 0 <= i < |a| ==> Clean(a[i]) == Clean(b[i])
    ensures Sanitise(a) == Sanitise(b)
  {
    var sa, sb := Sanitise(a), Sanitise(b);
    forall i | 0 <= i < |sa|
      ensures sa[i] == sb[i]
    {
      assert sa[i] == Clean(a[i]);
      assert sb[i] == Clean(b[i]);
    }
  }

  /** Names that agree after folding give equal filter names. */
  lemma FilterNameFromFolded(a: string, b: string)
    requires |a| == |b| && forall i :: 0 <= i < |a| ==> Clean(a[i]) == Clean(b[i])
    ensures FilterName(a) == FilterName(b)
  {
    SanitiseFolded(a, b);
    FilterNameSanitised(a);
    FilterNameSanitised(b);
  }

  /**
   * Two domain names yield the same filter name exactly when they agree
   * character by character once spaces and question marks are folded to `_`.
   */
  lemma {:induction false} FilterNameCollision(a: string, b: string)
    ensures FilterName(a) == FilterName(b) <==> |a| == |b| && forall i :: 0 <= i < |a| ==> Clean(a[i]) == Clean(b[i])
  {
    if FilterName(a) == FilterName(b) {
      FilterNameAgree(a, b);
    }
    if |a| == |b| && forall i :: 0 <= i < |a| ==> Clean(a[i]) == Clean(b[i]) {
      FilterNameFromFolded(a, b);
    }
  }

  /** A name with a space and a trailing `?`: "Corp WAN?" yields "AUTO_DOMAIN_Corp_WAN_". */
  lemma CorpWanName()
    ensures FilterName("Corp WAN?") == "AUTO_DOMAIN_Corp_WAN_"
  {
    FilterNameSanitised("Corp WAN?");
    var s := Sanitise("Corp WAN?");
    assert |s| == 9;
    assert s == "Corp_WAN_" by {
      assert s[0] == Clean('C') && s[4] == Clean(' ') && s[8] == Clean('?');
    }
  }

  /** Distinct domain names whose only difference is a space versus a question mark share a filter name. */
  lemma SpaceAndQuestionMarkCollide()
    ensures "a b" != "a?b" && FilterName("a b") == FilterName("a?b")
  {
    FilterNameCollision("a b", "a?b");
  }
}

=== FILE: reconcile.dfy ===
/**
 * Reconciling one domain's filter on one hub element: read the element's
 * routing prefix filters, overwrite every filter carrying the domain's filter
 * name with freshly built rules, or else create the filter when the domain
 * has prefixes, or else skip. The control plane is an abstract filter store
 * plus oracles answering the n-th list read and the n-th write.
 */
module Reconcile {
  import opened Wrappers
  import opened Inventory
  import opened Rules
  import opened Aggregation

  /** The writable content of a routing prefix filter (what a create posts). */
  datatype FilterBody = FilterBody(
    name: string,
    description: Option<string>,
    tags: Option<seq<string>>,
    autoGenerated: bool,
    rules: seq<Rule>)

  /** A routing prefix filter as stored: a server-assigned id and its content. */
  datatype Filter = Filter(id: Id, body: FilterBody)

  /** The same filter with its `prefix_filter_list` replaced and every other field kept. */
  function WithRules(f: Filter, rules: seq<Rule>): (g: Filter)
    ensures g.id == f.id && g.body.name == f.body.name && g.body.rules == rules
    ensures g.body.description == f.body.description && g.body.tags == f.body.tags
    ensures g.body.autoGenerated == f.body.autoGenerated
  {
    f.(body := f.body.(rules := rules))
  }

  /** Filters are kept per (site id, element id). */
  type Key = (Id, Id)
  type Store = map<Key, seq<Filter>>

  /** The filter list the control plane returns for a key; an unknown key has none. */
  function FiltersAt(store: Store, key: Key): seq<Filter> {
    if key in store then store[key] else []
  }

  /**
   * The remote API's answers: whether the n-th filter-list read succeeds,
   * whether the n-th write (create or update) succeeds, and the id the
   * server assigns when the n-th write is a successful create.
   */
  datatype Api = Api(listReadOk: nat -> bool, writeOk: nat -> bool, freshId: nat -> Id)

  /** How many filter-list reads and writes have been issued so far. */
  datatype Calls = Calls(listReads: nat, writes: nat)

  /** One update call: the full filter object sent and whether the server accepted it. */
  datatype Write = Write(filter: Filter, ok: bool)

  /** What happened for one (site, element, domain). */
  datatype Outcome =
    | Updated(writes: seq<Write>)
    | Created(body: FilterBody, ok: bool)
    | Skipped

  /** Why the run stopped. */
  datatype FatalReason =
    | ServiceBindingsReadFailed
    | SitesReadFailed
    | ElementsReadFailed
    | FilterListReadFailed(site: Id, element: Id)

  datatype Event =
    | Visit(site: Id, element: Id, domain: Id, outcome: Outcome)
    | Fatal(reason: FatalReason)

  /** The event of one reconciliation step and the state after it. */
  datatype Step = Step(event: Event, store: Store, calls: Calls)

  /** Some filter in the list carries the name. */
  predicate HasNamed(filters: seq<Filter>, name: string) {
    exists j :: 0 <= j < |filters| && filters[j].body.name == name
  }

  /** How many of the first `j` filters carry the name: the index of the update a matching filter `j` gets. */
  function Rank(filters: seq<Filter>, name: string, j: nat): nat
    requires j <= |filters|
  {
    if j == 0 then 0
    else Rank(filters, name, j - 1) + (if filters[j - 1].body.name == name then 1 else 0)
  }

  /** How many filters in the list carry the name. */
  function CountNamed(filters: seq<Filter>, name: string): nat {
    Rank(filters, name, |filters|)
  }

  /** The rank of a matching filter is below the number of matching filters. */
  lemma {:induction false} RankBelowCount(filters: seq<Filter>, name: string, j: nat, k: nat)
    requires j < k <= |filters| && filters[j].body.name == name
    ensures Rank(filters, name, j) < Rank(filters, name, k)
  {
    if k > j + 1 {
      RankBelowCount(filters, name, j, k - 1);
    }
  }

  /** Some of the first `j` filters carry the name exactly when the rank is positive. */
  lemma {:induction false} RankPositive(filters: seq<Filter>, name: string, j: nat)
    requires j <= |filters|
    ensures Rank(filters, name, j) > 0 <==> exists i :: 0 <= i < j && filters[i].body.name == name
  {
    if j > 0 {
      RankPositive(filters, name, j - 1);
    }
  }

  /** A filter list holds a filter with the name exactly when the count is positive. */
  lemma {:induction false} CountNamedPositive(filters: seq<Filter>, name: string)
    ensures CountNamed(filters, name) > 0 <==> HasNamed(filters, name)
  {
    RankPositive(filters, name, |filters|);
  }

  /** Ranks only look at the filters before the position. */
  lemma {:induction false} RankPrefix(filters: seq<Filter>, prefix: seq<Filter>, name: string, j: nat)
    requires |prefix| <= |filters| && prefix == filters[..|prefix|]
    requires j <= |prefix|
    ensures Rank(prefix, name, j) == Rank(filters, name, j)
  {
    if j > 0 {
      RankPrefix(filters, prefix, name, j - 1);
      assert prefix[j - 1] == filters[j - 1];
    }
  }

  /** The filters after the updates of one step, and the update calls issued. */
  datatype Updating = Updating(writes: seq<Write>, filters: seq<Filter>)

  /**
   * The update calls for a filter list: `writes` holds one update per filter
   * carrying the name, in list order, the m-th of them being write number
   * `w + m`.
   */
  ghost predicate UpdateCalls(filters: seq<Filter>, writes: seq<Write>, name: string, rules: seq<Rule>, api: Api, w: nat) {
    && |writes| == CountNamed(filters, name)
    && (forall m :: 0 <= m < |writes| ==> writes[m].ok == api.writeOk(w + m))
    && (forall j {:trigger filters[j]} :: 0 <= j < |filters| && filters[j].body.name == name ==>
          Rank(filters, name, j) < |writes| &&
          writes[Rank(filters, name, j)].filter == WithRules(filters[j], rules))
    && (forall m :: 0 <= m < |writes| ==> writes[m].filter.body.name == name && writes[m].filter.body.rules == rules)
  }

  /**
   * The filter list after those calls: a filter carrying the name has the new
   * rules if its update succeeded; everything else is as it was.
   */
  ghost predicate UpdateEffect(filters: seq<Filter>, after: seq<Filter>, name: string, rules: seq<Rule>, api: Api, w: nat) {
    && |after| == |filters|
    && forall j {:trigger after[j]} :: 0 <= j < |filters| ==>
         after[j] == (if filters[j].body.name == name && api.writeOk(w + Rank(filters, name, j))
                      then WithRules(filters[j], rules) else filters[j])
  }

  /** The loop over the filter list: every filter whose name matches is updated; the loop never stops early. */
  function UpdateNamed(filters: seq<Filter>, name: string, rules: seq<Rule>, api: Api, w: nat): (r: Updating)
    ensures UpdateCalls(filters, r.writes, name, rules, api, w)
    ensures UpdateEffect(filters, r.filters, name, rules, api, w)
  {
    if |filters| == 0 then Updating([], [])
    else
      var n := |filters| - 1;
      var f := filters[n];
      var before := UpdateNamed(filters[..n], name, rules, api, w);
      if f.body.name == name then
        var ok := api.writeOk(w + |before.writes|);
        UpdateCallsMatch(filters, filters[..n], name, rules, api, w, before.writes);
        UpdateEffectStep(filters, filters[..n], name, rules, api, w, before.filters, if ok then WithRules(f, rules) else f);
        Updating(before.writes + [Write(WithRules(f, rules), ok)], before.filters + [if ok then WithRules(f, rules) else f])
      else
        UpdateCallsOther(filters, filters[..n], name, rules, api, w, before.writes);
        UpdateEffectStep(filters, filters[..n], name, rules, api, w, before.filters, f);
        Updating(before.writes, before.filters + [f])
  }

  /** The leading part of a list agrees with it on elements and ranks. */
  lemma {:induction false} PrefixFacts(filters: seq<Filter>, prefix: seq<Filter>, name: string)
    requires |filters| > 0 && prefix == filters[..|filters| - 1]
    ensures forall j :: 0 <= j < |prefix| ==> prefix[j] == filters[j]
    ensures forall j :: 0 <= j <= |prefix| ==> Rank(prefix, name, j) == Rank(filters, name, j)
  {
    forall j | 0 <= j <= |prefix|
      ensures Rank(prefix, name, j) == Rank(filters, name, j)
    {
      RankPrefix(filters, prefix, name, j);
    }
  }

  /** Appending a filter that carries the name adds one update call at the end. */
  lemma {:induction false} UpdateCallsMatch(filters: seq<Filter>, prefix: seq<Filter>, name: string, rules: seq<Rule>, api: Api, w: nat, writes: seq<Write>)
    requires |filters| > 0 && prefix == filters[..|filters| - 1]
    requires filters[|filters| - 1].body.name == name
    requires UpdateCalls(prefix, writes, name, rules, api, w)
    ensures UpdateCalls(filters, writes + [Write(WithRules(filters[|filters| - 1], rules), api.writeOk(w + |writes|))], name, rules, api, w)
  {
    var n := |filters| - 1;
    var all := writes + [Write(WithRules(filters[n], rules), api.writeOk(w + |writes|))];
    PrefixFacts(filters, prefix, name);
    assert CountNamed(filters, name) == CountNamed(prefix, name) + 1;
    forall j | 0 <= j < |filters| && filters[j].body.name == name
      ensures Rank(filters, name, j) < |all| && all[Rank(filters, name, j)].filter == WithRules(filters[j], rules)
    {
      if j < n {
        assert prefix[j] == filters[j];
      }
    }
  }

  /** Appending a filter with another name adds no update call. */
  lemma {:induction false} UpdateCallsOther(filters: seq<Filter>, prefix: seq<Filter>, name: string, rules: seq<Rule>, api: Api, w: nat, writes: seq<Write>)
    requires |filters| > 0 && prefix == filters[..|filters| - 1]
    requires filters[|filters| - 1].body.name != name
    requires UpdateCalls(prefix, writes, name, rules, api, w)
    ensures UpdateCalls(filters, writes, name, rules, api, w)
  {
    var n := |filters| - 1;
    PrefixFacts(filters, prefix, name);
    assert CountNamed(filters, name) == CountNamed(prefix, name);
    forall j | 0 <= j < |filters| && filters[j].body.name == name
      ensures Rank(filters, name, j) < |writes| && writes[Rank(filters, name, j)].filter == WithRules(filters[j], rules)
    {
      assert j < n;
      assert prefix[j] == filters[j];
    }
  }

  /** Appending a filter extends the effect by that filter, updated or not. */
  lemma {:induction false} UpdateEffectStep(filters: seq<Filter>, prefix: seq<Filter>, name: string, rules: seq<Rule>, api: Api, w: nat, after: seq<Filter>, last: Filter)
    requires |filters| > 0 && prefix == filters[..|filters| - 1]
    requires UpdateEffect(prefix, after, name, rules, api, w)
    requires var f := filters[|filters| - 1];
      last == (if f.body.name == name && api.writeOk(w + CountNamed(prefix, name)) then WithRules(f, rules) else f)
    ensures UpdateEffect(filters, after + [last], name, rules, api, w)
  {
    var n := |filters| - 1;
    var all := after + [last];
    forall j | 0 <= j < |filters|
      ensures all[j] == (if filters[j].body.name == name && api.writeOk(w + Rank(filters, name, j))
                         then WithRules(filters[j], rules) else filters[j])
    {
      RankPrefix(filters, prefix, name, j);
      if j < n {
        assert all[j] == after[j];
        UpdateEffectKept(filters, prefix, name, rules, api, w, after, j);
      } else {
        assert all[j] == last;
      }
    }
  }

  /** A position before the appended filter keeps its effect. */
  lemma {:induction false} UpdateEffectKept(filters: seq<Filter>, prefix: seq<Filter>, name: string, rules: seq<Rule>, api: Api, w: nat, after: seq<Filter>, j: nat)
    requires UpdateEffect(prefix, after, name, rules, api, w)
    requires j < |prefix| && j < |filters| && prefix[j] == filters[j]
    requires Rank(prefix, name, j) == Rank(filters, name, j)
    ensures after[j] == (if filters[j].body.name == name && api.writeOk(w + Rank(filters, name, j))
                         then WithRules(filters[j], rules) else filters[j])
  {
    var x := after[j];
    assert x == (if prefix[j].body.name == name && api.writeOk(w + Rank(prefix, name, j))
                 then WithRules(prefix[j], rules) else prefix[j]);
  }
  // ---------------------------------------------------------------------------
  // One (site, element, domain) unit
  // ---------------------------------------------------------------------------

  function KeyOf(site: Site, element: Element): Key {
    (site.id, element.id)
  }

  /** The body a create posts for a domain row: the filter name, no description or tags, not auto-generated. */
  function NewFilterBody(entry: Entry): (body: FilterBody)
    ensures body.name == entry.filterName && body.description == None && body.tags == None && !body.autoGenerated
    ensures |body.rules| == |entry.prefixes|
    ensures forall i :: 0 <= i < |entry.prefixes| ==> body.rules[i] == Rule(10 * (i + 1), true, entry.prefixes[i], 0, 0)
  {
    FilterBody(entry.filterName, None, None, false, BuildRules(entry.prefixes).rules)
  }

  /** Every write numbered in [from, to) fails. */
  ghost predicate WritesFail(api: Api, from: nat, to: nat) {
    forall m :: from <= m < to ==> !api.writeOk(m)
  }

  /**
   * Reconciling one domain row on one element of one hub site: read the
   * element's filter list (a failed read is fatal); update every filter
   * carrying the row's filter name; if there is none, create the filter when
   * the building counter ended above zero, or else skip. Only successful
   * writes change the store.
   */
  function ReconcileUnit(store: Store, site: Site, element: Element, entry: Entry, api: Api, calls: Calls): (r: Step)
    ensures r.event.Fatal? <==> !api.listReadOk(calls.listReads)
    ensures r.event.Fatal? ==> r.event.reason == FilterListReadFailed(site.id, element.id) && r.store == store && r.calls == calls
    ensures r.event.Visit? ==>
      && r.event.site == site.id && r.event.element == element.id && r.event.domain == entry.domain
      && r.calls.listReads == calls.listReads + 1
    ensures r.calls.writes >= calls.writes
    ensures r.store - {KeyOf(site, element)} == store - {KeyOf(site, element)}
    ensures r.event.Visit? ==>
      var filters := FiltersAt(store, KeyOf(site, element));
      && (r.event.outcome.Updated? <==> HasNamed(filters, entry.filterName))
      && (r.event.outcome.Created? <==> !HasNamed(filters, entry.filterName) && |entry.prefixes| > 0)
      && (r.event.outcome.Skipped? <==> !HasNamed(filters, entry.filterName) && |entry.prefixes| == 0)
    ensures r.event.Visit? && r.event.outcome.Updated? ==>
      var key := KeyOf(site, element);
      var filters := FiltersAt(store, key);
      var rules := BuildRules(entry.prefixes).rules;
      && UpdateCalls(filters, r.event.outcome.writes, entry.filterName, rules, api, calls.writes)
      && r.calls.writes == calls.writes + |r.event.outcome.writes|
      && key in r.store
      && UpdateEffect(filters, r.store[key], entry.filterName, rules, api, calls.writes)
    ensures r.event.Visit? && r.event.outcome.Created? ==>
      var key := KeyOf(site, element);
      var ok := r.event.outcome.ok;
      && r.event.outcome.body == NewFilterBody(entry)
      && ok == api.writeOk(calls.writes)
      && r.calls.writes == calls.writes + 1
      && r.store == if ok then store[key := FiltersAt(store, key) + [Filter(api.freshId(calls.writes), NewFilterBody(entry))]] else store
    ensures r.event.Visit? && r.event.outcome.Skipped? ==> r.store == store && r.calls.writes == calls.writes
  {
    var key := KeyOf(site, element);
    if !api.listReadOk(calls.listReads) then
      Step(Fatal(FilterListReadFailed(site.id, element.id)), store, calls)
    else
      var filters := FiltersAt(store, key);
      var built := BuildRules(entry.prefixes);
      var read := calls.(listReads := calls.listReads + 1);
      CountNamedPositive(filters, entry.filterName);
      if CountNamed(filters, entry.filterName) > 0 then
        var u := UpdateNamed(filters, entry.filterName, built.rules, api, calls.writes);
        Step(Visit(site.id, element.id, entry.domain, Updated(u.writes)),
             store[key := u.filters],
             read.(writes := calls.writes + |u.writes|))
      else if built.counter > 0 then
        var body := FilterBody(entry.filterName, None, None, false, built.rules);
        var ok := api.writeOk(calls.writes);
        Step(Visit(site.id, element.id, entry.domain, Created(body, ok)),
             if ok then store[key := filters + [Filter(api.freshId(calls.writes), body)]] else store,
             read.(writes := calls.writes + 1))
      else
        Step(Visit(site.id, element.id, entry.domain, Skipped), store, read)
  }

  /** When every write of a unit fails, the store is as before. */
  lemma FailedWritesKeepStore(store: Store, site: Site, element: Element, entry: Entry, api: Api, calls: Calls)
    ensures var r := ReconcileUnit(store, site, element, entry, api, calls);
      WritesFail(api, calls.writes, r.calls.writes) ==> r.store == store
  {
    var r := ReconcileUnit(store, site, element, entry, api, calls);
    var key := KeyOf(site, element);
    if WritesFail(api, calls.writes, r.calls.writes) && r.event.Visit? && r.event.outcome.Updated? {
      var filters := FiltersAt(store, key);
      var rules := BuildRules(entry.prefixes).rules;
      var writes := r.event.outcome.writes;
      assert HasNamed(filters, entry.filterName);
      assert key in store;
      var after := r.store[key];
      forall j | 0 <= j < |filters|
        ensures after[j] == filters[j]
      {
        var x := after[j];
        if filters[j].body.name == entry.filterName {
          var m := Rank(filters, entry.filterName, j);
          RankBelowCount(filters, entry.filterName, j, |filters|);
          assert !api.writeOk(calls.writes + m);
        }
      }
      assert after == filters;
      assert r.store == store[key := filters];
    }
  }

  /** Updating filters that already carry the new rules changes nothing, whatever the write outcomes. */
  lemma UpdateEffectNoop(filters: seq<Filter>, after: seq<Filter>, name: string, rules: seq<Rule>, api: Api, w: nat)
    requires UpdateEffect(filters, after, name, rules, api, w)
    requires forall j :: 0 <= j < |filters| && filters[j].body.name == name ==> filters[j].body.rules == rules
    ensures after == filters
  {
    forall j | 0 <= j < |filters|
      ensures after[j] == filters[j]
    {
      var x := after[j];
    }
  }

  /**
   * Reconciliation is idempotent on a unit: when reads and writes succeed, a
   * second pass over the same unit updates the filter the first pass left
   * and leaves the store as it was.
   */
  lemma ReconcileTwiceStable(store: Store, site: Site, element: Element, entry: Entry, api: Api, calls: Calls)
    requires api.listReadOk(calls.listReads) && api.listReadOk(calls.listReads + 1)
    requires forall m :: calls.writes <= m ==> api.writeOk(m)
    ensures var first := ReconcileUnit(store, site, element, entry, api, calls);
      var second := ReconcileUnit(first.store, site, element, entry, api, first.calls);
      && second.store == first.store
      && second.event.Visit?
      && (second.event.outcome.Updated? || second.event.outcome.Skipped?)
  {
    var first := ReconcileUnit(store, site, element, entry, api, calls);
    var key := KeyOf(site, element);
    var rules := BuildRules(entry.prefixes).rules;
    var filters := FiltersAt(store, key);
    match first.event.outcome
    case Skipped =>
    case Created(body, ok) =>
      var newer := filters + [Filter(api.freshId(calls.writes), body)];
      assert FiltersAt(first.store, key) == newer;
      CreatedFilterCurrent(filters, newer, entry.filterName, rules);
      SecondPassStable(first.store, site, element, entry, api, first.calls);
    case Updated(writes) =>
      UpdatedFiltersCurrent(filters, first.store[key], entry.filterName, rules, api, calls.writes);
      SecondPassStable(first.store, site, element, entry, api, first.calls);
  }

  /** The filters carrying the name already have the rules. */
  ghost predicate Current(filters: seq<Filter>, name: string, rules: seq<Rule>) {
    HasNamed(filters, name) &&
    forall j :: 0 <= j < |filters| && filters[j].body.name == name ==> filters[j].body.rules == rules
  }

  /** After a create, the created filter is the only one with the name and carries the rules. */
  lemma CreatedFilterCurrent(filters: seq<Filter>, newer: seq<Filter>, name: string, rules: seq<Rule>)
    requires !HasNamed(filters, name)
    requires |newer| == |filters| + 1 && newer[..|filters|] == filters
    requires newer[|filters|].body.name == name && newer[|filters|].body.rules == rules
    ensures Current(newer, name, rules)
  {
    forall j | 0 <= j < |newer| && newer[j].body.name == name
      ensures newer[j].body.rules == rules
    {
      assert j == |filters|;
    }
  }

  /** After updates that all succeeded, every filter with the name carries the rules. */
  lemma UpdatedFiltersCurrent(filters: seq<Filter>, after: seq<Filter>, name: string, rules: seq<Rule>, api: Api, w: nat)
    requires HasNamed(filters, name)
    requires UpdateEffect(filters, after, name, rules, api, w)
    requires forall m :: w <= m ==> api.writeOk(m)
    ensures Current(after, name, rules)
  {
    var i :| 0 <= i < |filters| && filters[i].body.name == name;
    var y := after[i];
    forall j | 0 <= j < |after| && after[j].body.name == name
      ensures after[j].body.rules == rules
    {
      var x := after[j];
    }
  }

  /** A pass over a unit whose filters are current changes nothing. */
  lemma SecondPassStable(store: Store, site: Site, element: Element, entry: Entry, api: Api, calls: Calls)
    requires api.listReadOk(calls.listReads)
    requires Current(FiltersAt(store, KeyOf(site, element)), entry.filterName, BuildRules(entry.prefixes).rules)
    ensures var r := ReconcileUnit(store, site, element, entry, api, calls);
      r.store == store && r.event.Visit? && r.event.outcome.Updated?
  {
    var r := ReconcileUnit(store, site, element, entry, api, calls);
    var key := KeyOf(site, element);
    var filters := FiltersAt(store, key);
    UpdateEffectNoop(filters, r.store[key], entry.filterName, BuildRules(entry.prefixes).rules, api, calls.writes);
    assert key in store;
  }

  /**
   * Two domains whose names sanitise to the same filter name share one
   * filter on an element: after the first one's successful create, the
   * second one finds that filter (the list is read again) and overwrites its
   * rules with its own prefixes instead of creating a second filter.
   */
  lemma CollidingNamesShareFilter(store: Store, site: Site, element: Element, first: Entry, second: Entry, api: Api, calls: Calls)
    requires first.filterName == second.filterName
    requires !HasNamed(FiltersAt(store, KeyOf(site, element)), first.filterName)
    requires |first.prefixes| > 0
    requires api.listReadOk(calls.listReads) && api.listReadOk(calls.listReads + 1) && api.writeOk(calls.writes)
    ensures var r1 := ReconcileUnit(store, site, element, first, api, calls);
      var r2 := ReconcileUnit(r1.store, site, element, second, api, r1.calls);
      && r1.event == Visit(site.id, element.id, first.domain, Created(NewFilterBody(first), true))
      && r2.event.Visit? && r2.event.outcome.Updated?
      && r2.event.outcome.writes == [Write(Filter(api.freshId(calls.writes), NewFilterBody(second)), api.writeOk(calls.writes + 1))]
  {
    var r1 := ReconcileUnit(store, site, element, first, api, calls);
    var r2 := ReconcileUnit(r1.store, site, element, second, api, r1.calls);
    var key := KeyOf(site, element);
    var filters := FiltersAt(store, key);
    var created := Filter(api.freshId(calls.writes), NewFilterBody(first));
    var newer := filters + [created];
    assert FiltersAt(r1.store, key) == newer;
    assert newer[|filters|] == created;
    assert HasNamed(newer, second.filterName);
    var writes := r2.event.outcome.writes;
    RankPositive(newer, second.filterName, |filters|);
    assert Rank(newer, second.filterName, |filters|) == 0;
    assert |writes| == 1;
    assert writes[0].filter == WithRules(created, BuildRules(second.prefixes).rules);
  }
}

=== FILE: rules.dfy ===
/**
 * The prefix-filter rule list built from a domain's aggregated prefixes:
 * one permit rule per prefix, numbered 10, 20, 30, ... in list order.
 */
module Rules {

  /** One entry of a filter's `prefix_filter_list`. */
  datatype Rule = Rule(order: int, permit: bool, prefix: string, ge: int, le: int)

  /** The rule list together with the final value of the running order counter. */
  datatype Built = Built(rules: seq<Rule>, counter: int)

  /**
   * The counting loop: for each prefix in turn the counter is advanced by 10
   * and a permit rule with that order is appended.
   */
  function BuildRules(prefixes: seq<string>): (b: Built)
    ensures |b.rules| == |prefixes|
    ensures b.counter == 10 * |prefixes|
    ensures b.counter > 0 <==> |prefixes| > 0
    ensures forall i :: 0 <= i < |prefixes| ==> b.rules[i] == Rule(10 * (i + 1), true, prefixes[i], 0, 0)
  {
    if |prefixes| == 0 then Built([], 0)
    else
      var before := BuildRules(prefixes[..|prefixes| - 1]);
      var counter := before.counter + 10;
      Built(before.rules + [Rule(counter, true, prefixes[|prefixes| - 1], 0, 0)], counter)
  }

  /** The prefixes a rule list matches, in rule order. */
  function RulePrefixes(rules: seq<Rule>): (ps: seq<string>)
    ensures |ps| == |rules|
    ensures forall i :: 0 <= i < |rules| ==> ps[i] == rules[i].prefix
  {
    if |rules| == 0 then [] else [rules[0].prefix] + RulePrefixes(rules[1..])
  }

  /**
   * The built rules carry exactly the given prefixes in the given order,
   * all permit with ge = le = 0, and their orders are strictly increasing
   * multiples of 10 starting at 10.
   */
  lemma {:induction false} BuildRulesShape(prefixes: seq<string>)
    ensures RulePrefixes(BuildRules(prefixes).rules) == prefixes
    ensures forall r :: r in BuildRules(prefixes).rules ==> r.permit && r.ge == 0 && r.le == 0
    ensures forall i, j :: 0 <= i < j < |prefixes| ==> BuildRules(prefixes).rules[i].order < BuildRules(prefixes).rules[j].order
    ensures forall i :: 0 <= i < |prefixes| ==> BuildRules(prefixes).rules[i].order % 10 == 0
    ensures |prefixes| > 0 ==> BuildRules(prefixes).rules[0].order == 10
  {
    var rules := BuildRules(prefixes).rules;
    var ps := RulePrefixes(rules);
    assert forall i :: 0 <= i < |ps| ==> ps[i] == prefixes[i];
    forall r | r in rules
      ensures r.permit && r.ge == 0 && r.le == 0
    {
      var i :| 0 <= i < |rules| && rules[i] == r;
    }
  }

  /** Two prefixes give rules ordered 10 and 20, in list order. */
  lemma CorpWanRules()
    ensures BuildRules(["10.0.0.0/24", "10.0.1.0/24"]).rules
         == [Rule(10, true, "10.0.0.0/24", 0, 0), Rule(20, true, "10.0.1.0/24", 0, 0)]
  {
  }
}

=== FILE: run.dfy ===
/**
 * The run: read the inventory (any failed read is fatal), build the domain
 * table, select the hub sites, and reconcile every domain row on every
 * element of every hub site, in that nesting order, threading the filter
 * store and the call counters through the units.
 */
module Run {
  import opened Wrappers
  import opened Inventory
  import opened Aggregation
  import opened Naming
  import opened Rules
  import opened Reconcile

  /** The cluster role that marks a hub site. */
  const HubRole: string := "HUB"

  /** The hub sites, in site-list order. */
  function HubSites(sites: seq<Site>): (hubs: seq<Site>)
    ensures |hubs| <= |sites|
    ensures forall s :: s in hubs <==> s in sites && s.clusterRole == HubRole
  {
    if |sites| == 0 then []
    else
      var rest := HubSites(sites[1..]);
      assert forall s :: s in sites <==> s == sites[0] || s in sites[1..];
      if sites[0].clusterRole == HubRole then [sites[0]] + rest else rest
  }

  /** Hub selection keeps site-list order: it distributes over concatenation. */
  lemma {:induction false} HubSitesAppend(a: seq<Site>, b: seq<Site>)
    ensures HubSites(a + b) == HubSites(a) + HubSites(b)
  {
    if |a| > 0 {
      assert (a + b)[1..] == a[1..] + b;
      HubSitesAppend(a[1..], b);
    } else {
      assert a + b == b;
    }
  }

  /** One reconciliation: a domain row on one element of one hub site. */
  datatype Unit = Unit(site: Site, element: Element, entry: Entry)

  /** The rows of the table on one element, in table order. */
  function RowUnits(site: Site, element: Element, table: seq<Entry>): seq<Unit> {
    seq(|table|, i requires 0 <= i < |table| => Unit(site, element, table[i]))
  }

  /** Domains are the innermost loop, in table order: the units of a split table are concatenated. */
  lemma RowUnitsAppend(site: Site, element: Element, a: seq<Entry>, b: seq<Entry>)
    ensures RowUnits(site, element, a + b) == RowUnits(site, element, a) + RowUnits(site, element, b)
  {
  }

  /** One row on an element is one unit. */
  lemma RowUnitsSingle(site: Site, element: Element, e: Entry)
    ensures RowUnits(site, element, [e]) == [Unit(site, element, e)]
  {
  }

  /** The units of one hub site: its elements in element-list order, each with every row. */
  function ElementUnits(site: Site, elements: seq<Element>, table: seq<Entry>): seq<Unit> {
    if |elements| == 0 then []
    else
      (if elements[0].siteId == Some(site.id) then RowUnits(site, elements[0], table) else [])
      + ElementUnits(site, elements[1..], table)
  }

  /** All units: hub sites outermost, then elements, then domain rows. */
  function Units(hubs: seq<Site>, elements: seq<Element>, table: seq<Entry>): seq<Unit> {
    if |hubs| == 0 then []
    else ElementUnits(hubs[0], elements, table) + Units(hubs[1..], elements, table)
  }

  /** The units of one hub are its elements crossed with the rows. */
  lemma {:induction false} ElementUnitsMember(site: Site, elements: seq<Element>, table: seq<Entry>, u: Unit)
    ensures u in ElementUnits(site, elements, table) <==>
      u.site == site && u.element in elements && u.element.siteId == Some(site.id) && u.entry in table
  {
    if |elements| > 0 {
      ElementUnitsMember(site, elements[1..], table, u);
      assert u.element in elements <==> u.element == elements[0] || u.element in elements[1..];
      var own := if elements[0].siteId == Some(site.id) then RowUnits(site, elements[0], table) else [];
      if u in own {
        var i :| 0 <= i < |own| && own[i] == u;
      }
      if u.site == site && u.element == elements[0] && u.element.siteId == Some(site.id) && u.entry in table {
        var i :| 0 <= i < |table| && table[i] == u.entry;
        assert own[i] == u;
      }
    }
  }

  /**
   * Exactly the (hub site, element, row) triples whose element belongs to
   * that hub site are planned.
   */
  lemma {:induction false} UnitsMember(hubs: seq<Site>, elements: seq<Element>, table: seq<Entry>, u: Unit)
    ensures u in Units(hubs, elements, table) <==>
      u.site in hubs && u.element in elements && u.element.siteId == Some(u.site.id) && u.entry in table
  {
    if |hubs| > 0 {
      UnitsMember(hubs[1..], elements, table, u);
      ElementUnitsMember(hubs[0], elements, table, u);
      assert u.site in hubs <==> u.site == hubs[0] || u.site in hubs[1..];
    }
  }

  /** Hub sites are the outermost loop: the units of a split hub list are concatenated. */
  lemma {:induction false} UnitsAppend(a: seq<Site>, b: seq<Site>, elements: seq<Element>, table: seq<Entry>)
    ensures Units(a + b, elements, table) == Units(a, elements, table) + Units(b, elements, table)
  {
    if |a| > 0 {
      assert (a + b)[1..] == a[1..] + b;
      UnitsAppend(a[1..], b, elements, table);
    } else {
      assert a + b == b;
    }
  }

  /** Elements are the middle loop: the units of a split element list are concatenated. */
  lemma {:induction false} ElementUnitsAppend(site: Site, a: seq<Element>, b: seq<Element>, table: seq<Entry>)
    ensures ElementUnits(site, a + b, table) == ElementUnits(site, a, table) + ElementUnits(site, b, table)
  {
    if |a| > 0 {
      assert (a + b)[1..] == a[1..] + b;
      ElementUnitsAppend(site, a[1..], b, table);
    } else {
      assert a + b == b;
    }
  }

  // ---------------------------------------------------------------------------
  // Running the units
  // ---------------------------------------------------------------------------

  /** The events of a run, the store it leaves and the calls it issued. */
  datatype Trace = Trace(events: seq<Event>, store: Store, calls: Calls)

  /** The event is the visit of that unit. */
  predicate Visits(e: Event, u: Unit) {
    e.Visit? && e.site == u.site.id && e.element == u.element.id && e.domain == u.entry.domain
  }

  /** The (site, element) keys the units touch. */
  function UnitKeys(units: seq<Unit>): set<Key> {
    set u | u in units :: KeyOf(u.site, u.element)
  }

  /**
   * The shape of the events of a run over the units whose filter-list reads
   * are numbered from base: one event per unit in order, a visit when its
   * read succeeds and a fatal stop when it fails; only the last event may be
   * fatal, and the run ends early only at a fatal one.
   */
  ghost predicate TraceShape(events: seq<Event>, units: seq<Unit>, api: Api, base: nat) {
    && |events| <= |units|
    && (forall i :: 0 <= i < |events| ==> (events[i].Fatal? <==> !api.listReadOk(base + i)))
    && (forall i :: 0 <= i < |events| ==>
          Visits(events[i], units[i]) || events[i] == Fatal(FilterListReadFailed(units[i].site.id, units[i].element.id)))
    && (forall i :: 0 <= i < |events| - 1 ==> events[i].Visit?)
    && (|events| < |units| ==> |events| > 0 && events[|events| - 1].Fatal?)
  }

  /**
   * One unit of the run: the reconciliation of its row on its element, seen
   * through what the run depends on — which read it consumed, which event it
   * produced and which key it may change.
   */
  function Advance(store: Store, u: Unit, api: Api, calls: Calls): (r: Step)
    ensures r.event.Fatal? <==> !api.listReadOk(calls.listReads)
    ensures r.event.Fatal? ==>
      r.event == Fatal(FilterListReadFailed(u.site.id, u.element.id)) && r.store == store && r.calls == calls
    ensures r.event.Visit? ==> Visits(r.event, u) && r.calls.listReads == calls.listReads + 1
    ensures r.calls.writes >= calls.writes
    ensures WritesFail(api, calls.writes, r.calls.writes) ==> r.store == store
  {
    FailedWritesKeepStore(store, u.site, u.element, u.entry, api, calls);
    ReconcileUnit(store, u.site, u.element, u.entry, api, calls)
  }

  /** Extending a well-shaped trace by a visit of the unit in front keeps it well shaped. */
  lemma {:induction false} TraceShapeCons(e: Event, rest: seq<Event>, units: seq<Unit>, api: Api, base: nat)
    requires |units| > 0 && Visits(e, units[0]) && api.listReadOk(base)
    requires TraceShape(rest, units[1..], api, base + 1)
    ensures TraceShape([e] + rest, units, api, base)
  {
    var events := [e] + rest;
    forall i | 1 <= i < |events|
      ensures events[i] == rest[i - 1] && units[i] == units[1..][i - 1] && base + i == base + 1 + (i - 1)
    {
    }
  }

  /**
   * The nested loops of the run over the units: each unit is reconciled on
   * the store the previous one left; a fatal read ends the run; a failed
   * write does not.
   */
  function RunUnits(store: Store, units: seq<Unit>, api: Api, calls: Calls): (r: Trace)
    ensures TraceShape(r.events, units, api, calls.listReads)
    ensures r.calls.writes >= calls.writes
    ensures WritesFail(api, calls.writes, r.calls.writes) ==> r.store == store
    decreases |units|
  {
    if |units| == 0 then Trace([], store, calls)
    else
      var step := Advance(store, units[0], api, calls);
      if step.event.Fatal? then Trace([step.event], step.store, step.calls)
      else
        var rest := RunUnits(step.store, units[1..], api, step.calls);
        TraceShapeCons(step.event, rest.events, units, api, calls.listReads);
        assert WritesFail(api, calls.writes, rest.calls.writes) ==>
          WritesFail(api, calls.writes, step.calls.writes) && WritesFail(api, step.calls.writes, rest.calls.writes);
        Trace([step.event] + rest.events, rest.store, rest.calls)
  }

  /**
   * A run touches only the keys of the units it reached: every other key's
   * filter list is unchanged, including the keys of units after a fatal stop.
   */
  lemma {:induction false} RunUnitsFrame(store: Store, units: seq<Unit>, api: Api, calls: Calls, k: Key)
    ensures var r := RunUnits(store, units, api, calls);
      k !in UnitKeys(units[..|r.events|]) ==> (k in r.store <==> k in store) && (k in store ==> r.store[k] == store[k])
    decreases |units|
  {
    if |units| > 0 && k !in UnitKeys(units[..|RunUnits(store, units, api, calls).events|]) {
      var n := |RunUnits(store, units, api, calls).events|;
      var u := units[0];
      var step := Advance(store, u, api, calls);
      assert step == ReconcileUnit(store, u.site, u.element, u.entry, api, calls);
      assert n > 0 && units[..n][0] == u;
      assert KeyOf(u.site, u.element) in UnitKeys(units[..n]);
      assert k in step.store - {KeyOf(u.site, u.element)} <==> k in store - {KeyOf(u.site, u.element)};
      if !step.event.Fatal? {
        var rest := RunUnits(step.store, units[1..], api, step.calls);
        assert n == |rest.events| + 1;
        assert units[1..][..|rest.events|] == units[..n][1..];
        assert UnitKeys(units[..n][1..]) <= UnitKeys(units[..n]);
        RunUnitsFrame(step.store, units[1..], api, step.calls, k);
      }
    }
  }

  /**
   * Write outcomes never change the shape of a run: with the same answers to
   * the filter-list reads, two runs over the same units visit the same units
   * and stop at the same place, whatever the store and the writes do.
   */
  lemma {:induction false} RunShapeIgnoresWrites(store1: Store, store2: Store, units: seq<Unit>, api1: Api, api2: Api, calls1: Calls, calls2: Calls)
    requires calls1.listReads == calls2.listReads
    requires forall n :: api1.listReadOk(n) == api2.listReadOk(n)
    ensures var r1 := RunUnits(store1, units, api1, calls1);
      var r2 := RunUnits(store2, units, api2, calls2);
      |r1.events| == |r2.events| &&
      forall i :: 0 <= i < |r1.events| ==> (r1.events[i].Fatal? <==> r2.events[i].Fatal?)
  {
    var r1 := RunUnits(store1, units, api1, calls1);
    var r2 := RunUnits(store2, units, api2, calls2);
    ShapesAgree(r1.events, r2.events, units, api1, api2, calls1.listReads);
  }

  /** Two well-shaped traces over the same units and the same read answers stop at the same place. */
  lemma ShapesAgree(events1: seq<Event>, events2: seq<Event>, units: seq<Unit>, api1: Api, api2: Api, base: nat)
    requires forall n :: api1.listReadOk(n) == api2.listReadOk(n)
    requires TraceShape(events1, units, api1, base) && TraceShape(events2, units, api2, base)
    ensures |events1| == |events2|
    ensures forall i :: 0 <= i < |events1| ==> (events1[i].Fatal? <==> events2[i].Fatal?)
  {
    forall i | 0 <= i < |events1| && i < |events2|
      ensures events1[i].Fatal? <==> events2[i].Fatal?
    {
      assert api1.listReadOk(base + i) == api2.listReadOk(base + i);
    }
  }

  /** With every filter-list read answered, a run visits every unit in order. */
  lemma {:induction false} RunUnitsAllReadsOk(store: Store, units: seq<Unit>, api: Api, calls: Calls)
    requires forall n :: calls.listReads <= n ==> api.listReadOk(n)
    ensures var r := RunUnits(store, units, api, calls);
      |r.events| == |units| && forall i :: 0 <= i < |units| ==> Visits(r.events[i], units[i])
  {
    var r := RunUnits(store, units, api, calls);
    assert |r.events| > 0 ==> api.listReadOk(calls.listReads + |r.events| - 1);
    forall i | 0 <= i < |units|
      ensures Visits(r.events[i], units[i])
    {
      assert api.listReadOk(calls.listReads + i);
    }
  }

  /** A run over one unit is that unit's reconciliation, on the store and calls it is given. */
  lemma RunUnitsSingle(store: Store, u: Unit, api: Api, calls: Calls)
    ensures var s := ReconcileUnit(store, u.site, u.element, u.entry, api, calls);
      RunUnits(store, [u], api, calls) == Trace([s.event], s.store, s.calls)
  {
    assert [u][1..] == [];
  }

  /** The run ended at a fatal stop: only the last event of a run can be fatal. */
  predicate Stopped(events: seq<Event>) {
    |events| > 0 && events[|events| - 1].Fatal?
  }

  /**
   * Units taken one after the other by any step function: each starts from
   * the store and calls the previous one left, and a fatal event ends the
   * sequence. The run is this with `Advance` as the step.
   */
  function Fold(store: Store, units: seq<Unit>, api: Api, calls: Calls, step: (Store, Unit, Api, Calls) -> Step): (r: Trace)
    ensures |r.events| <= |units|
    decreases |units|
  {
    if |units| == 0 then Trace([], store, calls)
    else
      var s := step(store, units[0], api, calls);
      if s.event.Fatal? then Trace([s.event], s.store, s.calls)
      else
        var rest := Fold(s.store, units[1..], api, s.calls, step);
        Trace([s.event] + rest.events, rest.store, rest.calls)
  }

  /** The run is the fold of `Advance` over its units. */
  lemma {:induction false} RunUnitsIsFold(store: Store, units: seq<Unit>, api: Api, calls: Calls)
    ensures RunUnits(store, units, api, calls) == Fold(store, units, api, calls, Advance)
    decreases |units|
  {
    if |units| > 0 {
      var s := Advance(store, units[0], api, calls);
      if !s.event.Fatal? {
        RunUnitsIsFold(s.store, units[1..], api, s.calls);
      }
    }
  }

  /** A fold has one event per unit unless it stopped. */
  lemma {:induction false} FoldLength(store: Store, units: seq<Unit>, api: Api, calls: Calls, step: (Store, Unit, Api, Calls) -> Step)
    ensures var r := Fold(store, units, api, calls, step);
      Stopped(r.events) || |r.events| == |units|
    decreases |units|
  {
    if |units| > 0 {
      var s := step(store, units[0], api, calls);
      if !s.event.Fatal? {
        FoldLength(s.store, units[1..], api, s.calls, step);
      }
    }
  }

  /** A fatal stop in the first part of the units ends a fold over the whole list there. */
  lemma {:induction false} FoldAppendStopped(store: Store, a: seq<Unit>, b: seq<Unit>, api: Api, calls: Calls, step: (Store, Unit, Api, Calls) -> Step)
    requires Stopped(Fold(store, a, api, calls, step).events)
    ensures Fold(store, a + b, api, calls, step) == Fold(store, a, api, calls, step)
    decreases |a|
  {
    assert (a + b)[0] == a[0];
    assert (a + b)[1..] == a[1..] + b;
    var s := step(store, a[0], api, calls);
    if !s.event.Fatal? {
      FoldAppendStopped(s.store, a[1..], b, api, s.calls, step);
    }
  }

  /** Without a fatal stop, a fold over the second part starts from what the first part left. */
  lemma {:induction false} FoldAppendGoesOn(store: Store, a: seq<Unit>, b: seq<Unit>, api: Api, calls: Calls, step: (Store, Unit, Api, Calls) -> Step)
    requires !Stopped(Fold(store, a, api, calls, step).events)
    ensures var ra := Fold(store, a, api, calls, step);
      var rb := Fold(ra.store, b, api, ra.calls, step);
      Fold(store, a + b, api, calls, step) == Trace(ra.events + rb.events, rb.store, rb.calls)
    decreases |a|
  {
    var ra := Fold(store, a, api, calls, step);
    if |a| == 0 {
      assert a + b == b;
      assert ra.events + Fold(ra.store, b, api, ra.calls, step).events == Fold(ra.store, b, api, ra.calls, step).events;
    } else {
      assert (a + b)[0] == a[0];
      assert (a + b)[1..] == a[1..] + b;
      var s := step(store, a[0], api, calls);
      var ra' := Fold(s.store, a[1..], api, s.calls, step);
      assert !Stopped(ra'.events) by {
        if |ra'.events| > 0 {
          assert ra.events[|ra.events| - 1] == ra'.events[|ra'.events| - 1];
        }
      }
      FoldAppendGoesOn(s.store, a[1..], b, api, s.calls, step);
      var rb := Fold(ra.store, b, api, ra.calls, step);
      assert [s.event] + (ra'.events + rb.events) == ([s.event] + ra'.events) + rb.events;
    }
  }

  /**
   * Units run one after the other: a run over a split unit list is the run
   * over the first part followed by the run over the second, which starts
   * from the store and calls the first part left; a fatal stop in the first
   * part ends the whole run there.
   */
  lemma RunUnitsAppend(store: Store, a: seq<Unit>, b: seq<Unit>, api: Api, calls: Calls)
    ensures var ra := RunUnits(store, a, api, calls);
      Stopped(ra.events) ==> RunUnits(store, a + b, api, calls) == ra
    ensures var ra := RunUnits(store, a, api, calls);
      var rb := RunUnits(ra.store, b, api, ra.calls);
      !Stopped(ra.events) ==> RunUnits(store, a + b, api, calls) == Trace(ra.events + rb.events, rb.store, rb.calls)
  {
    var ra := RunUnits(store, a, api, calls);
    RunUnitsIsFold(store, a, api, calls);
    RunUnitsIsFold(ra.store, b, api, ra.calls);
    RunUnitsIsFold(store, a + b, api, calls);
    if Stopped(ra.events) {
      FoldAppendStopped(store, a, b, api, calls, Advance);
    } else {
      FoldAppendGoesOn(store, a, b, api, calls, Advance);
    }
  }

  /**
   * The i-th event of a fold is the step on the i-th unit, taken from the
   * store and calls the units before it left.
   */
  lemma FoldNth(store: Store, units: seq<Unit>, api: Api, calls: Calls, step: (Store, Unit, Api, Calls) -> Step, i: nat)
    requires i < |Fold(store, units, api, calls, step).events|
    ensures var p := Fold(store, units[..i], api, calls, step);
      Fold(store, units, api, calls, step).events[i] == step(p.store, units[i], api, p.calls).event
  {
    var r := Fold(store, units, api, calls, step);
    var p := Fold(store, units[..i], api, calls, step);
    assert units == units[..i] + units[i..];
    FoldLength(store, units, api, calls, step);
    FoldLength(store, units[..i], api, calls, step);
    if Stopped(p.events) {
      FoldAppendStopped(store, units[..i], units[i..], api, calls, step);
      assert false;
    }
    FoldAppendGoesOn(store, units[..i], units[i..], api, calls, step);
    var rb := Fold(p.store, units[i..], api, p.calls, step);
    assert r.events[i] == rb.events[0];
    assert units[i..][0] == units[i];
  }

  /**
   * What each visit does: the i-th event of a run is the reconciliation of
   * the i-th unit on the store and calls that the units before it left.
   */
  lemma RunUnitsNth(store: Store, units: seq<Unit>, api: Api, calls: Calls, i: nat)
    requires i < |units|
    ensures var r := RunUnits(store, units, api, calls);
      var p := RunUnits(store, units[..i], api, calls);
      i < |r.events| ==>
        r.events[i] == ReconcileUnit(p.store, units[i].site, units[i].element, units[i].entry, api, p.calls).event
  {
    RunUnitsIsFold(store, units, api, calls);
    RunUnitsIsFold(store, units[..i], api, calls);
    if i < |RunUnits(store, units, api, calls).events| {
      FoldNth(store, units, api, calls, Advance, i);
    }
  }

  // ---------------------------------------------------------------------------
  // The whole run
  // ---------------------------------------------------------------------------

  /** The units of a run over a successfully read inventory. */
  function PlannedUnits(services: seq<Domain>, sites: seq<Site>, elements: seq<Element>,
                        localSets: map<Id, seq<LocalNetwork>>): seq<Unit> {
    Units(HubSites(sites), elements, BuildTable(services, sites, localSets))
  }

  /**
   * The planned units are exactly the triples of a hub site, an element of
   * that site and a row of the domain table.
   */
  lemma PlannedUnitsMember(services: seq<Domain>, sites: seq<Site>, elements: seq<Element>,
                           localSets: map<Id, seq<LocalNetwork>>, u: Unit)
    ensures u in PlannedUnits(services, sites, elements, localSets) <==>
      u.site in sites && u.site.clusterRole == HubRole && u.element in elements && u.element.siteId == Some(u.site.id)
      && u.entry in BuildTable(services, sites, localSets)
  {
    UnitsMember(HubSites(sites), elements, BuildTable(services, sites, localSets), u);
  }

  /**
   * The main routine: read the service-binding maps, the sites and the
   * elements, in that order, stopping fatally at the first failed read; then
   * run the planned units from a fresh call count.
   */
  function Go(services: ReadResult<seq<Domain>>, sites: ReadResult<seq<Site>>, elements: ReadResult<seq<Element>>,
              localSets: map<Id, seq<LocalNetwork>>, store: Store, api: Api): (r: Trace)
    ensures services.ReadFailed? ==> r.events == [Fatal(ServiceBindingsReadFailed)] && r.store == store
    ensures services.ReadOk? && sites.ReadFailed? ==> r.events == [Fatal(SitesReadFailed)] && r.store == store
    ensures services.ReadOk? && sites.ReadOk? && elements.ReadFailed? ==>
      r.events == [Fatal(ElementsReadFailed)] && r.store == store
    ensures services.ReadOk? && sites.ReadOk? && elements.ReadOk? ==>
      TraceShape(r.events, PlannedUnits(services.items, sites.items, elements.items, localSets), api, 0)
    ensures services.ReadOk? && sites.ReadOk? && elements.ReadOk? ==>
      r == RunUnits(store, PlannedUnits(services.items, sites.items, elements.items, localSets), api, Calls(0, 0))
  {
    if services.ReadFailed? then Trace([Fatal(ServiceBindingsReadFailed)], store, Calls(0, 0))
    else if sites.ReadFailed? then Trace([Fatal(SitesReadFailed)], store, Calls(0, 0))
    else if elements.ReadFailed? then Trace([Fatal(ElementsReadFailed)], store, Calls(0, 0))
    else
      RunUnits(store, PlannedUnits(services.items, sites.items, elements.items, localSets), api, Calls(0, 0))
  }

  /**
   * A run whose every read succeeds visits exactly the planned units, in
   * order: each domain row on each element of each hub site, and a unit is a
   * visit of site, element and row exactly when the element belongs to that
   * hub site.
   */
  lemma {:induction false} GoVisitsPlannedUnits(services: seq<Domain>, sites: seq<Site>, elements: seq<Element>,
                             localSets: map<Id, seq<LocalNetwork>>, store: Store, api: Api)
    requires forall n :: api.listReadOk(n)
    ensures var r := Go(ReadOk(services), ReadOk(sites), ReadOk(elements), localSets, store, api);
      var units := PlannedUnits(services, sites, elements, localSets);
      |r.events| == |units| && forall i :: 0 <= i < |units| ==> Visits(r.events[i], units[i])
  {
    RunUnitsAllReadsOk(store, PlannedUnits(services, sites, elements, localSets), api, Calls(0, 0));
  }

  // ---------------------------------------------------------------------------
  // A worked run: one domain bound to a branch site that declares one prefix
  // (and one empty prefix, which does not count), and a hub site with two
  // elements and no filters yet.
  // ---------------------------------------------------------------------------

  const CorpWan := Domain("d1", "Corp WAN?")
  const Hq := Site("h1", "HQ", None, HubRole)
  const Branch := Site("s1", "Branch", Some("d1"), "SPOKE")
  const HqOne := Element("e1", "hq-1", Some("h1"))
  const HqTwo := Element("e2", "hq-2", Some("h1"))
  const BranchOne := Element("e3", "br-1", Some("s1"))
  const BranchSets := map["s1" := [LocalNetwork([PrefixEntry(Some("10.1.0.0/16")), PrefixEntry(Some(""))])]]
  const CorpWanEntry := Entry("d1", "AUTO_DOMAIN_Corp_WAN_", ["10.1.0.0/16"])
  const CorpWanBody := FilterBody("AUTO_DOMAIN_Corp_WAN_", None, None, false, [Rule(10, true, "10.1.0.0/16", 0, 0)])

  /** The branch site contributes its one non-empty prefix; the empty one is dropped. */
  lemma BranchContribution()
    ensures Contribution(BranchSets, Branch, "d1") == ["10.1.0.0/16"]
  {
    var kept, dropped := PrefixEntry(Some("10.1.0.0/16")), PrefixEntry(Some(""));
    assert SiteNetworks(BranchSets, Branch) == [LocalNetwork([kept, dropped])];
    NetworkPrefixesSingle(LocalNetwork([kept, dropped]));
    assert [kept, dropped] == [kept] + [dropped];
    SetPrefixesAppend([kept], [dropped]);
    SetPrefixesSingle(kept);
    SetPrefixesSingle(dropped);
  }

  /** The table of the worked run: one row carrying the branch site's non-empty prefix. */
  lemma ScenarioTable()
    ensures BuildTable([CorpWan], [Hq, Branch], BranchSets) == [CorpWanEntry]
  {
    CorpWanName();
    AggregateAppend([Hq], [Branch], "d1", BranchSets);
    AggregateSingle(Hq, "d1", BranchSets);
    AggregateSingle(Branch, "d1", BranchSets);
    BranchContribution();
    assert Aggregate([Hq, Branch], "d1", BranchSets) == ["10.1.0.0/16"];
    assert Rows([CorpWan], [Hq, Branch], BranchSets) == [CorpWanEntry];
    assert [CorpWanEntry][..0] == [];
    assert Assign([CorpWanEntry]) == Upsert([], CorpWanEntry) == [CorpWanEntry];
  }

  /** The units of the worked run: the hub's two elements, each with the one row. */
  lemma ScenarioUnits()
    ensures PlannedUnits([CorpWan], [Hq, Branch], [HqOne, HqTwo, BranchOne], BranchSets)
         == [Unit(Hq, HqOne, CorpWanEntry), Unit(Hq, HqTwo, CorpWanEntry)]
  {
    ScenarioTable();
    assert HubSites([Hq, Branch]) == [Hq];
    assert [HqOne, HqTwo, BranchOne][1..] == [HqTwo, BranchOne];
    assert [HqTwo, BranchOne][1..] == [BranchOne];
    assert ElementUnits(Hq, [BranchOne], [CorpWanEntry]) == [];
    assert RowUnits(Hq, HqTwo, [CorpWanEntry]) == [Unit(Hq, HqTwo, CorpWanEntry)];
    assert ElementUnits(Hq, [HqTwo, BranchOne], [CorpWanEntry]) == [Unit(Hq, HqTwo, CorpWanEntry)];
    assert RowUnits(Hq, HqOne, [CorpWanEntry]) == [Unit(Hq, HqOne, CorpWanEntry)];
    assert ElementUnits(Hq, [HqOne, HqTwo, BranchOne], [CorpWanEntry])
        == [Unit(Hq, HqOne, CorpWanEntry), Unit(Hq, HqTwo, CorpWanEntry)];
    assert Units([Hq], [HqOne, HqTwo, BranchOne], [CorpWanEntry])
        == ElementUnits(Hq, [HqOne, HqTwo, BranchOne], [CorpWanEntry]) + Units([], [HqOne, HqTwo, BranchOne], [CorpWanEntry]);
  }

  /** The filter the worked run creates on the first hub element. */
  lemma ScenarioFirstCreate(api: Api)
    requires api.listReadOk(0) && api.writeOk(0)
    ensures Advance(map[], Unit(Hq, HqOne, CorpWanEntry), api, Calls(0, 0))
         == Step(Visit("h1", "e1", "d1", Created(CorpWanBody, true)),
                 map[("h1", "e1") := [Filter(api.freshId(0), CorpWanBody)]], Calls(1, 1))
  {
    assert Advance(map[], Unit(Hq, HqOne, CorpWanEntry), api, Calls(0, 0))
        == ReconcileUnit(map[], Hq, HqOne, CorpWanEntry, api, Calls(0, 0));
    assert NewFilterBody(CorpWanEntry) == CorpWanBody;
    assert KeyOf(Hq, HqOne) == ("h1", "e1") && FiltersAt(map[], ("h1", "e1")) == [];
    assert [] + [Filter(api.freshId(0), CorpWanBody)] == [Filter(api.freshId(0), CorpWanBody)];
  }

  /** The filter the worked run creates on the second hub element; the first one's is left alone. */
  lemma ScenarioSecondCreate(api: Api, store: Store)
    requires api.listReadOk(1) && api.writeOk(1)
    requires store == map[("h1", "e1") := [Filter(api.freshId(0), CorpWanBody)]]
    ensures Advance(store, Unit(Hq, HqTwo, CorpWanEntry), api, Calls(1, 1))
         == Step(Visit("h1", "e2", "d1", Created(CorpWanBody, true)),
                 store[("h1", "e2") := [Filter(api.freshId(1), CorpWanBody)]], Calls(2, 2))
  {
    assert Advance(store, Unit(Hq, HqTwo, CorpWanEntry), api, Calls(1, 1))
        == ReconcileUnit(store, Hq, HqTwo, CorpWanEntry, api, Calls(1, 1));
    assert NewFilterBody(CorpWanEntry) == CorpWanBody;
    assert KeyOf(Hq, HqTwo) == ("h1", "e2") && FiltersAt(store, ("h1", "e2")) == [];
    assert [] + [Filter(api.freshId(1), CorpWanBody)] == [Filter(api.freshId(1), CorpWanBody)];
  }

  /** The two units of the worked run, run in order on an empty store. */
  lemma ScenarioRun(api: Api)
    requires forall n :: api.listReadOk(n) && api.writeOk(n)
    ensures RunUnits(map[], [Unit(Hq, HqOne, CorpWanEntry), Unit(Hq, HqTwo, CorpWanEntry)], api, Calls(0, 0))
         == Trace([Visit("h1", "e1", "d1", Created(CorpWanBody, true)), Visit("h1", "e2", "d1", Created(CorpWanBody, true))],
                  map[("h1", "e1") := [Filter(api.freshId(0), CorpWanBody)], ("h1", "e2") := [Filter(api.freshId(1), CorpWanBody)]],
                  Calls(2, 2))
  {
    var units := [Unit(Hq, HqOne, CorpWanEntry), Unit(Hq, HqTwo, CorpWanEntry)];
    var store1 := map[("h1", "e1") := [Filter(api.freshId(0), CorpWanBody)]];
    ScenarioFirstCreate(api);
    ScenarioSecondCreate(api, store1);
    var store2 := store1[("h1", "e2") := [Filter(api.freshId(1), CorpWanBody)]];
    assert units[1..] == [units[1]] && units[1..][1..] == [];
    assert RunUnits(store1, units[1..], api, Calls(1, 1))
        == Trace([Visit("h1", "e2", "d1", Created(CorpWanBody, true))], store2, Calls(2, 2));
  }

  /**
   * The worked run: each hub element receives the same new filter, under the
   * id the server assigned to its create; the branch site's element is
   * never visited.
   */
  lemma TwoHubElementsScenario(api: Api)
    requires forall n :: api.listReadOk(n) && api.writeOk(n)
    ensures var r := Go(ReadOk([CorpWan]), ReadOk([Hq, Branch]), ReadOk([HqOne, HqTwo, BranchOne]), BranchSets, map[], api);
      && r.events == [Visit("h1", "e1", "d1", Created(CorpWanBody, true)), Visit("h1", "e2", "d1", Created(CorpWanBody, true))]
      && r.store == map[("h1", "e1") := [Filter(api.freshId(0), CorpWanBody)], ("h1", "e2") := [Filter(api.freshId(1), CorpWanBody)]]
  {
    ScenarioUnits();
    ScenarioRun(api);
  }
}

=== FILE: wrappers.dfy ===
/** The optional value used for the nullable fields of the control-plane records. */
module Wrappers {

  /** `None` stands for a JSON `null` or an absent field. */
  datatype Option<+T> = None | Some(value: T)
}
